=== FILE: README.md ===
# Air-cargo planning problem

A Dafny model of `AirCargoProblem`, the grounded STRIPS-style air-cargo planning problem. Cargos move between airports in planes through Load, Unload and Fly actions. The model covers:

- **Construction.** The state map is the positive initial fluents followed by the negative ones. The initial state marks exactly the positive fluents true.
- **Action grounder.** `get_actions` expands the three action schemas over the object lists. Its nested loops run in a fixed order: cargo, plane, airport for Load and Unload; from, to, plane for Fly, skipping `from == to`.
- **Transition function.**
  - `actions` keeps the cached actions whose preconditions hold, in their original order.
  - `result` applies one action, or returns the state unchanged when the action is not applicable.
- **Goal test.**
- **Syntactic heuristics.** These are the constant `h_1` and the ignore-preconditions count, together with the facts that make the count admissible.
- **The three benchmark problems** `air_cargo_p1`, `air_cargo_p2` and `air_cargo_p3`.

A state is a `seq<bool>` aligned with the state map (`true` stands for `'T'`). The knowledge base that `actions`, `result` and `goal_test` build is modelled by its clause list:

- The knowledge base built from a state is told the fluent of every true index. It is a multiset (`Fluents.TrueBag`), and its support is the set of fluents at true indices (`Fluents.TrueFluents`).
- A precondition check asks that every positive precondition is in it and no negative one is.
- Acting retracts one told copy per delete effect, then tells each add effect (`AirCargo.ApplyEffectsBag`).
- The successor is read back index by index: an index is true when its fluent is still in the clause list.
- On a duplicate-free state map every fluent is told at most once, and this coincides with the set view (`AirCargo.ApplyEffects`). On a map that lists a fluent twice it does not, because one retraction leaves the second copy.

Modules:

- `Fluents`: fluents, states, the knowledge-base view.
- `Grounding`: actions and the grounder.
- `AirCargo`: the problem, `actions`, `result`, `goal_test`.
- `Heuristics`: the two heuristics.
- `Instances`: the three problems.

## Model

| member | source | states |
|---|---|---|
| Fluents.TrueFluents | my_air_cargo_problems.py:134-135 | The knowledge base told the positive part of a decoded state holds a fluent iff some state-map index carrying it is true |
| Fluents.TrueBag | my_air_cargo_problems.py:150-152 | The clause list told the positive part of a decoded state holds exactly the fluents at true indices, and on a duplicate-free state map each of them once |
| Fluents.TrueBagCount | my_air_cargo_problems.py:150-152 | The clause list tells each fluent exactly as often as there are true indices carrying it |
| Fluents.HoldsAtIndex | my_air_cargo_problems.py:170-173 | In a consistent state, a state-map fluent is in the knowledge base exactly when its index is true |
| Fluents.DistinctConsistent | my_air_cargo_problems.py:29 | A state map without duplicates makes every state consistent |
| AirCargo.NewProblem | my_air_cargo_problems.py:15-35 | The state map is the positive list then the negative list, of length \|pos\|+\|neg\|. The initial knowledge base is exactly the positive fluents. The object lists and goal are kept. The action list is the grounding |
| Grounding.LoadCount | my_air_cargo_problems.py:56-76 | There are exactly \|cargos\|·\|planes\|·\|airports\| Load actions |
| Grounding.UnloadCount | my_air_cargo_problems.py:78-98 | There are exactly \|cargos\|·\|planes\|·\|airports\| Unload actions |
| Grounding.FlyCount | my_air_cargo_problems.py:100-121 | With distinct airport names there are \|planes\|·\|airports\|·(\|airports\|−1) Fly actions |
| Grounding.ActionCount | my_air_cargo_problems.py:123 | With distinct airport names the action list has 2·\|cargos\|·\|planes\|·\|airports\| + \|planes\|·\|airports\|·(\|airports\|−1) entries |
| Grounding.GetActionsBlocks | my_air_cargo_problems.py:123 | The action list is exactly the Load actions, then exactly the Unload actions (\|cargos\|·\|planes\|·\|airports\| each), then exactly the Fly actions |
| Grounding.GetActionsAt | my_air_cargo_problems.py:61-75 | For cargo i, plane j, airport k, Load(c,p,a) sits at position `Offset(i, j, k, \|planes\|, \|airports\|)`, which is (i·\|planes\|+j)·\|airports\|+k by `Grounding.OffsetFormula`. Unload(c,p,a) sits one Load block later |
| Grounding.GetActionsMembership | my_air_cargo_problems.py:56-123 | An action is in the list iff it is Load or Unload over a listed cargo, plane and airport, or Fly of a listed plane between two different listed airports, with the schema's preconditions and effects |
| Grounding.GroundedActionShape | my_air_cargo_problems.py:67-119 | Every grounded action has no negative preconditions, one add effect and one delete effect, and the two are different |
| AirCargo.FilterApplicable | my_air_cargo_problems.py:137 | The result contains exactly the listed actions whose preconditions hold. It is an order-preserving sublist, with one entry per applicable position |
| AirCargo.Actions | my_air_cargo_problems.py:134-138 | `actions(s)` is exactly the order-preserving sublist of the action list whose preconditions hold in s, with one entry per applicable position. It never contains another action |
| AirCargo.Result | my_air_cargo_problems.py:149-162 | The result has one bit per state-map index. An inapplicable action leaves the state unchanged. After an applicable one, add-effect indices are true, indices neither added nor deleted keep their value in the knowledge base, and the result is consistent. What happens to a deleted fluent is stated by `AirCargo.ResultRetract` |
| AirCargo.ResultRetract | my_air_cargo_problems.py:157-161 | After an applicable action, a deleted and not re-added fluent stays true exactly when the state told it more often than the action retracts it. On a duplicate-free map it becomes false |
| AirCargo.ResultTrueFluents | my_air_cargo_problems.py:157-161 | On a duplicate-free state map, the successor's knowledge base is the set view: the effects applied to the old one, restricted to the state map. It is unchanged when the action is not applicable |
| AirCargo.RetractKeepsDuplicate | my_air_cargo_problems.py:154-161 | On a map listing `At(C,A)` at two true indices, Load(C,P,A) is applicable and leaves both indices true, because retracting once leaves the second told copy. The set view would drop `At(C,A)` |
| AirCargo.ResultFrame | my_air_cargo_problems.py:154-162 | On a duplicate-free state map, an applicable action with disjoint effects sets its add indices, clears its delete indices, and leaves every other index as it was |
| AirCargo.EffectOrderIrrelevant | my_air_cargo_problems.py:157 | With disjoint add and delete lists, retract-then-tell on the clause list equals tell-then-retract |
| AirCargo.RunConsistent | my_air_cargo_problems.py:149-162 | Applying any sequence of actions from a consistent state yields a consistent state |
| AirCargo.LoadEffect | my_air_cargo_problems.py:67-75 | On a duplicate-free state map, an applicable Load(c,p,a) makes In(c,p) true, makes At(c,a) false, and leaves every other state-map index as it was |
| AirCargo.UnloadUndoesLoad | my_air_cargo_problems.py:67-97 | On a duplicate-free state map, when the cargo is not already in the plane (c ≠ p, In(c,p) listed in the state map and false), after an applicable Load(c,p,a), Unload(c,p,a) is applicable and restores the original state |
| AirCargo.FlyEffect | my_air_cargo_problems.py:108-119 | On a duplicate-free state map, an applicable Fly(p,fr,to) with fr ≠ to makes At(p,to) true, makes At(p,fr) false, and leaves every other index as it was |
| AirCargo.FlyBackUndoesFly | my_air_cargo_problems.py:108-119 | On a duplicate-free state map, when the plane is not already at `to` (fr ≠ to, At(p,to) listed in the state map and false), after an applicable Fly(p,fr,to), Fly(p,to,fr) is applicable and restores the original state |
| AirCargo.AllHold | my_air_cargo_problems.py:172-175 | The loop returns true iff every goal clause is in the knowledge base |
| AirCargo.GoalTest | my_air_cargo_problems.py:170-175 | `goal_test(s)` is true iff every goal fluent is true in s. It is false iff some goal fluent is missing from the knowledge base |
| Heuristics.CountFalseGoals | my_air_cargo_problems.py:226-227 | The count over the first n indices equals the number of those indices whose fluent is a goal and whose bit is false |
| Heuristics.HIgnorePreconditions | my_air_cargo_problems.py:226-228 | The estimate is the number of state-map indices holding a goal fluent that is false, so at most \|state map\| |
| Heuristics.FalseGoalFluentsSize | my_air_cargo_problems.py:226-227 | Without duplicates in the state map, counting indices equals counting distinct false goal fluents |
| Heuristics.HeuristicAtMostGoals | my_air_cargo_problems.py:226-228 | With a duplicate-free state map the estimate is at most \|goal\| |
| Heuristics.HeuristicCountsFalseGoals | my_air_cargo_problems.py:224-228 | With a duplicate-free state map listing every goal, the estimate is the number of goal fluents not in the knowledge base |
| Heuristics.HeuristicZeroIffGoal | my_air_cargo_problems.py:170-175 | When every goal fluent is in the state map and the state is consistent, the estimate is 0 iff `goal_test` holds |
| Heuristics.HeuristicStepBound | my_air_cargo_problems.py:225 | On a duplicate-free state map, one action adding at most one fluent lowers the estimate by at most one |
| Heuristics.PlanLowerBound | my_air_cargo_problems.py:217-228 | Admissibility: on a duplicate-free state map listing every goal fluent, every plan of single-add actions that reaches the goal from s has at least h(s) actions |
| Heuristics.AdmissibleOnGroundedPlans | my_air_cargo_problems.py:217-228 | The same bound, on a valid problem whose duplicate-free state map lists every goal fluent, for every plan drawn from the problem's own action list |
| Heuristics.ConstantOverestimatesAtGoal | my_air_cargo_problems.py:177-180 | At a goal state the empty plan suffices, yet `h_1` answers 1, so it is not admissible |
| Instances.P1ActionCount | my_air_cargo_problems.py:231-255 | Problem 1 grounds 20 actions |
| Instances.P1StateMap | my_air_cargo_problems.py:239-254 | Problem 1's state map has 12 distinct entries, including both goal fluents |
| Instances.P1InitialEstimate | my_air_cargo_problems.py:239-254 | In problem 1's initial state the goal test fails and the ignore-preconditions estimate is 2 |
| Instances.P1PlanIsGrounded | my_air_cargo_problems.py:231-255 | Every action of the six-step plan (Load C1 P1 SFO, Fly P1 SFO JFK, Unload C1 P1 JFK, Load C2 P2 JFK, Fly P2 JFK SFO, Unload C2 P2 SFO) is in problem 1's action list |
| Instances.P1PlanReachesGoal | my_air_cargo_problems.py:231-255 | Run from problem 1's initial state, the six-step plan reaches a goal state |
| Instances.P1PlansNeedTwoActions | my_air_cargo_problems.py:231-255 | Every plan over problem 1's actions that reaches its goal has at least two actions |
| Instances.NegativeAtFacts | my_air_cargo_problems.py:274-278 | The airport loop lists exactly the At fluents of listed objects at listed airports that are not positive, without duplicates when the lists have none |
| Instances.NegativeInFacts | my_air_cargo_problems.py:280-282 | The plane loop lists exactly the In fluents of listed cargos in listed planes, without duplicates when the lists have none |
| Instances.GeneratedStateMap | my_air_cargo_problems.py:272-282 | For a listing with distinct object names and distinct positive At fluents over the objects, the generated state map lists every At and In fluent over the problem's objects exactly once |
| Instances.GeneratedInitialEstimate | my_air_cargo_problems.py:272-286 | For a listing with distinct object names and distinct positive At fluents over the objects, and distinct goal fluents over the objects, none of them positive, the initial estimate is \|goal\| and, when there is at least one goal fluent, the initial state is not a goal state |
| Instances.P2StateMap | my_air_cargo_problems.py:258-287 | Problem 2's state map lists every fluent over its objects exactly once |
| Instances.P2ActionCount | my_air_cargo_problems.py:258-287 | Problem 2 grounds 72 actions |
| Instances.P2InitialEstimate | my_air_cargo_problems.py:258-287 | Problem 2's initial state is not a goal state and its estimate is 3 |
| Instances.P3StateMap | my_air_cargo_problems.py:290-320 | Problem 3's state map lists every fluent over its objects exactly once |
| Instances.P3ActionCount | my_air_cargo_problems.py:290-320 | Problem 3 grounds 88 actions |
| Instances.P3InitialEstimate | my_air_cargo_problems.py:290-320 | Problem 3's initial state is not a goal state and its estimate is 4 |

## Left out

- The knowledge base (`PropKB`, `Action.check_precond`, `Action.act`, `ask_if_true`) is an external inference engine and is not part of this model. It is modelled by its clause list as described above: `tell` adds one copy per conjunct, `retract` removes one copy, and a query on a list of positive atoms asks for membership. The entailment machinery behind `ask_if_true` is not modelled.
- AirCargo.ResultTrueFluents, AirCargo.ResultFrame, AirCargo.LoadEffect, AirCargo.FlyEffect, AirCargo.UnloadUndoesLoad, AirCargo.FlyBackUndoesFly: each requires a duplicate-free state map. On a map that lists a fluent twice, a deleted fluent can survive its retraction (`AirCargo.RetractKeepsDuplicate`), so the set view and the inverse properties do not hold there. `AirCargo.Result` itself covers every map.
- The state codec (`encode_state`, `decode_state`, `FluentState`) is not part of this model. States are `seq<bool>` over the state map. The initial encoding is assumed to mark exactly the positive fluents true. No round trip of the codec is stated.
- The T/F string is a `seq<bool>`. The heuristic's comparison with `"F"` becomes `!s[i]`.
- A state of the wrong length is a requires (`IsState`). In the source such a state has no defined meaning.
- `h_pg_levelsum`, `h_pg_setlevel` and `h_pg_maxlevel` delegate to the planning graph, which is not part of this model.
- `Node`, `Problem` and the search drivers are generic external machinery. Heuristics take the state directly rather than a node.
- `expr` parsing and the formatting of action names are not modelled. Names are the datatype `Load(c,p,a) | Unload(c,p,a) | Fly(p,fr,to)`.
- Heuristics.H1: it has no contract of its own because it is the constant 1. `Heuristics.ConstantOverestimatesAtGoal` states what it means.
- Grounding.GetActionsAt: a closed-form position is stated for Load and Unload only. The Fly block's position is given by `Grounding.GetActionsBlocks`, and its contents by `Grounding.GetActionsMembership`, but no per-index formula is given because of the `fr != to` skip.
- Instances.P2StateMap: the sizes 27 and 32 of the problem-2 and problem-3 state maps are not stated. Their contents are characterised exactly instead (every fluent over the objects, once).
- Instances.P1PlanReachesGoal: the six-step plan is shown to reach the goal, and every plan is shown to need at least two actions. That six steps is optimal is not proved.

## Notes on the source

- The fluent vocabulary is meant to be free of duplicates, but the code does not check this: `state_map` is whatever `pos + neg` the caller passes. The model follows the code: `AirCargo.Result` is defined for any map, and on a map with a duplicate a retracted fluent can stay true (`AirCargo.RetractKeepsDuplicate`). Lemmas that depend on a duplicate-free map require `Distinct(stateMap)` or `Consistent(stateMap, s)`. The generated maps of problems 2 and 3 and the hand-written map of problem 1 are proved duplicate-free.
- The ignore-preconditions heuristic is described as counting false goal fluents, but the code counts state-map indices. The two agree when the state map has no duplicates (`Heuristics.HeuristicCountsFalseGoals`).

=== FILE: air_cargo.dfy ===
/**
  The air-cargo planning problem: its state map, initial state, cached action
  list, and the operations a search driver calls on it (applicable actions,
  successor state, goal test).

  The knowledge base `AirCargoProblem` consults is modelled by its clause
  list: the knowledge base built from a state is told the fluent of every
  true index (`TrueBag`, whose support is `TrueFluents`); a precondition
  check asks that every positive precondition is in it and no negative one
  is; acting retracts one told copy per delete effect and then tells the add
  effects.
 */
module AirCargo {
  import opened Fluents
  import opened Grounding

  /** A problem instance; every field is fixed at construction. */
  datatype Problem = Problem(
    cargos: seq<string>,
    planes: seq<string>,
    airports: seq<string>,
    stateMap: seq<Fluent>,
    initial: State,
    goal: seq<Fluent>,
    actionsList: seq<Action>)

  /** What construction guarantees: the initial state fits the state map and the action list is the grounding. */
  predicate Valid(p: Problem) {
    && |p.initial| == |p.stateMap|
    && p.actionsList == GetActions(p.cargos, p.planes, p.airports)
  }

  /** A state the problem's operations accept: one bit per state-map index. */
  predicate IsState(p: Problem, s: State) {
    |s| == |p.stateMap|
  }

  /** The initial encoding: an index is true exactly when its fluent is among the positive ones. */
  function EncodeInitial(pos: seq<Fluent>, sm: seq<Fluent>): State {
    seq(|sm|, i requires 0 <= i < |sm| => sm[i] in pos)
  }

  /**
    Construction: the state map is the positive fluents followed by the
    negative ones, the initial state marks the positive fluents true, and the
    actions are ground once.
   */
  function NewProblem(
    cargos: seq<string>, planes: seq<string>, airports: seq<string>,
    pos: seq<Fluent>, neg: seq<Fluent>, goal: seq<Fluent>): (r: Problem)
    ensures Valid(r)
    ensures r.stateMap == pos + neg && |r.stateMap| == |pos| + |neg|
    ensures TrueFluents(r.stateMap, r.initial) == Elements(pos)
    ensures Consistent(r.stateMap, r.initial)
    ensures r.cargos == cargos && r.planes == planes && r.airports == airports && r.goal == goal
  {
    var sm := pos + neg;
    var init := EncodeInitial(pos, sm);
    assert forall k :: 0 <= k < |pos| ==> sm[k] == pos[k] && init[k];
    Problem(cargos, planes, airports, sm, init, goal, GetActions(cargos, planes, airports))
  }

  // ---------------------------------------------------------------------------
  // Applicable actions

  /** The precondition check: all positive preconditions hold, no negative one does. */
  predicate Applicable(sm: seq<Fluent>, s: State, act: Action)
    requires |s| == |sm|
  {
    && (forall f :: f in act.precondPos ==> Holds(sm, s, f))
    && (forall f :: f in act.precondNeg ==> !Holds(sm, s, f))
  }

  /** `r` is `xs` with some elements dropped, order kept. */
  ghost predicate IsSublist<T>(r: seq<T>, xs: seq<T>)
    decreases |xs|
  {
    if |r| == 0 then true
    else if |xs| == 0 then false
    else
      (r[|r| - 1] == xs[|xs| - 1] && IsSublist(r[..|r| - 1], xs[..|xs| - 1]))
      || IsSublist(r, xs[..|xs| - 1])
  }

  /** The positions of `acts` that hold an applicable action. */
  ghost function ApplicablePositions(sm: seq<Fluent>, s: State, acts: seq<Action>): set<int>
    requires |s| == |sm|
  {
    set i | 0 <= i < |acts| && Applicable(sm, s, acts[i])
  }

  /**
    The applicable actions of `acts`, in their order: exactly the members of
    `acts` that pass the precondition check, one entry per applicable position.
   */
  function FilterApplicable(sm: seq<Fluent>, s: State, acts: seq<Action>): (r: seq<Action>)
    requires |s| == |sm|
    ensures forall act :: act in r <==> act in acts && Applicable(sm, s, act)
    ensures IsSublist(r, acts)
    ensures |r| == |ApplicablePositions(sm, s, acts)|
    decreases |acts|
  {
    if |acts| == 0 then []
    else
      var n := |acts| - 1;
      var prefix := FilterApplicable(sm, s, acts[..n]);
      var last := if Applicable(sm, s, acts[n]) then [acts[n]] else [];
      assert forall act :: act in acts <==> act in acts[..n] || act == acts[n] by {
        assert acts == acts[..n] + [acts[n]];
      }
      assert IsSublist(prefix + last, acts) by {
        if last != [] {
          assert (prefix + last)[..|prefix + last| - 1] == prefix;
        } else {
          assert prefix + last == prefix;
        }
      }
      ApplicablePositionsSnoc(sm, s, acts);
      prefix + last
  }

  /** Extending the list by one element adds its position exactly when that element is applicable. */
  lemma ApplicablePositionsSnoc(sm: seq<Fluent>, s: State, acts: seq<Action>)
    requires |s| == |sm| && |acts| > 0
    ensures var n := |acts| - 1;
      |ApplicablePositions(sm, s, acts)| ==
        |ApplicablePositions(sm, s, acts[..n])| + (if Applicable(sm, s, acts[n]) then 1 else 0)
  {
    var n := |acts| - 1;
    var before := ApplicablePositions(sm, s, acts[..n]);
    var after := ApplicablePositions(sm, s, acts);
    ApplicablePositionsSplit(sm, s, acts);
    if Applicable(sm, s, acts[n]) {
      assert n !in before;
      assert after == before + {n};
    } else {
      assert after == before;
    }
  }

  /** The positions of `acts` are those of its prefix, plus the last one when it is applicable. */
  lemma ApplicablePositionsSplit(sm: seq<Fluent>, s: State, acts: seq<Action>)
    requires |s| == |sm| && |acts| > 0
    ensures var n := |acts| - 1;
      forall i :: i in ApplicablePositions(sm, s, acts) <==>
        i in ApplicablePositions(sm, s, acts[..n]) || (i == n && Applicable(sm, s, acts[n]))
  {
    var n := |acts| - 1;
    forall i | 0 <= i < n
      ensures acts[..n][i] == acts[i]
    {
    }
  }

  /** `actions`: the cached action list filtered by the precondition check. */
  function Actions(p: Problem, s: State): (r: seq<Action>)
    requires IsState(p, s)
    ensures forall act :: act in r <==> act in p.actionsList && Applicable(p.stateMap, s, act)
    ensures IsSublist(r, p.actionsList)
    ensures |r| == |ApplicablePositions(p.stateMap, s, p.actionsList)|
  {
    FilterApplicable(p.stateMap, s, p.actionsList)
  }

  // ---------------------------------------------------------------------------
  // Successor state

  /**
    Acting on the clause list: each delete effect retracts one told copy of
    its fluent (if there is one), then each add effect is told once more.
   */
  function ApplyEffectsBag(kb: multiset<Fluent>, act: Action): multiset<Fluent> {
    (kb - multiset(act.effectRem)) + multiset(act.effectAdd)
  }

  /** Acting on the knowledge base seen as a set: retract the delete effects, then tell the add effects. */
  function ApplyEffects(kb: set<Fluent>, act: Action): set<Fluent> {
    (kb - Elements(act.effectRem)) + Elements(act.effectAdd)
  }

  /** Reading a knowledge base back into a state: index i is true iff its fluent is entailed. */
  function Encode(sm: seq<Fluent>, kb: multiset<Fluent>): State {
    seq(|sm|, i requires 0 <= i < |sm| => sm[i] in kb)
  }

  /**
    `result`: the successor of `s` under `act`. An action whose preconditions
    fail leaves the state as it is; otherwise add effects become true, fluents
    the action neither adds nor deletes keep the truth value they had in `s`,
    and a deleted fluent stays true only when it was told more often than the
    action retracts it, which never happens on a duplicate-free state map.
   */
  function Result(p: Problem, s: State, act: Action): (r: State)
    requires IsState(p, s)
    ensures IsState(p, r)
    ensures !Applicable(p.stateMap, s, act) ==> r == s
    ensures Applicable(p.stateMap, s, act) ==> Consistent(p.stateMap, r)
    ensures Applicable(p.stateMap, s, act) ==> forall i :: 0 <= i < |p.stateMap| ==>
      && (p.stateMap[i] in act.effectAdd ==> r[i])
      && (p.stateMap[i] !in act.effectAdd && p.stateMap[i] !in act.effectRem ==> r[i] == Holds(p.stateMap, s, p.stateMap[i]))
  {
    if !Applicable(p.stateMap, s, act) then s
    else Encode(p.stateMap, ApplyEffectsBag(TrueBag(p.stateMap, s), act))
  }

  /**
    A deleted fluent that is not also added stays true exactly when the state
    told it more often than the action retracts it; on a duplicate-free state
    map it is told at most once, so it becomes false.
   */
  lemma ResultRetract(p: Problem, s: State, act: Action, i: int)
    requires IsState(p, s) && Applicable(p.stateMap, s, act)
    requires 0 <= i < |p.stateMap| && p.stateMap[i] in act.effectRem && p.stateMap[i] !in act.effectAdd
    ensures Result(p, s, act)[i] <==> TrueBag(p.stateMap, s)[p.stateMap[i]] > multiset(act.effectRem)[p.stateMap[i]]
    ensures Distinct(p.stateMap) ==> !Result(p, s, act)[i]
  {
  }

  /**
    On a duplicate-free state map the successor's knowledge base is the set
    view: the effects applied to the old knowledge base, restricted to the
    fluents the state map can represent.
   */
  lemma ResultTrueFluents(p: Problem, s: State, act: Action)
    requires IsState(p, s) && Distinct(p.stateMap)
    ensures TrueFluents(p.stateMap, Result(p, s, act)) ==
      if Applicable(p.stateMap, s, act)
      then ApplyEffects(TrueFluents(p.stateMap, s), act) * Elements(p.stateMap)
      else TrueFluents(p.stateMap, s)
  {
    var sm := p.stateMap;
    if Applicable(sm, s, act) {
      var kb := ApplyEffects(TrueFluents(sm, s), act);
      var r := Result(p, s, act);
      forall f ensures f in TrueFluents(sm, r) <==> f in kb * Elements(sm) {
        if f in kb * Elements(sm) {
          var k :| 0 <= k < |sm| && sm[k] == f;
          ResultIndexSetView(p, s, act, k);
        }
        if f in TrueFluents(sm, r) {
          var k :| 0 <= k < |sm| && sm[k] == f && r[k];
          ResultIndexSetView(p, s, act, k);
        }
      }
    }
  }

  /** On a duplicate-free state map, index k of the successor is true iff the set view holds its fluent. */
  lemma ResultIndexSetView(p: Problem, s: State, act: Action, k: int)
    requires IsState(p, s) && Distinct(p.stateMap) && Applicable(p.stateMap, s, act)
    requires 0 <= k < |p.stateMap|
    ensures Result(p, s, act)[k] <==> p.stateMap[k] in ApplyEffects(TrueFluents(p.stateMap, s), act)
  {
    DistinctConsistent(p.stateMap, s);
    HoldsAtIndex(p.stateMap, s, k);
    if p.stateMap[k] in act.effectRem && p.stateMap[k] !in act.effectAdd {
      ResultRetract(p, s, act, k);
    }
  }

  /**
    A fluent told twice survives one retraction: with `At(c, a)` at two true
    indices, Load(c, p, a) leaves both of them true, where the set view would
    clear them.
   */
  lemma RetractKeepsDuplicate()
    ensures var load := LoadAction("C", "P", "A");
      && Applicable(DupMap(), DupState(), load)
      && Result(DupProblem(), DupState(), load) == [true, true, true, true]
      && At("C", "A") !in ApplyEffects(TrueFluents(DupMap(), DupState()), load)
  {
    TwiceToldApplicable();
    TwiceToldResult();
    var load := LoadAction("C", "P", "A");
    assert At("C", "A") in Elements(load.effectRem) && At("C", "A") !in Elements(load.effectAdd);
  }

  /** A state map that lists `At(C, A)` twice, and a state where both copies are true and the cargo is not loaded. */
  function DupMap(): seq<Fluent> {
    [At("C", "A"), At("C", "A"), At("P", "A"), In("C", "P")]
  }

  function DupState(): State {
    [true, true, true, false]
  }

  function DupProblem(): Problem {
    Problem(["C"], ["P"], ["A"], DupMap(), DupState(), [], [])
  }

  /** Load(C, P, A) in that state retracts one of the two told copies of `At(C, A)`, so both indices stay true. */
  lemma TwiceToldResult()
    ensures Result(DupProblem(), DupState(), LoadAction("C", "P", "A")) == [true, true, true, true]
  {
    TwiceToldApplicable();
    TwiceToldRetract();
    TwiceToldEncode();
  }

  /** Load(C, P, A) retracts one copy of `At(C, A)` and tells `In(C, P)`. */
  lemma TwiceToldRetract()
    ensures ApplyEffectsBag(TrueBag(DupMap(), DupState()), LoadAction("C", "P", "A")) ==
      multiset{At("C", "A"), At("P", "A"), In("C", "P")}
  {
    TwiceToldBag();
  }

  /** Reading back a clause list that still holds `At(C, A)`, `At(P, A)` and `In(C, P)` sets every bit. */
  lemma TwiceToldEncode()
    ensures Encode(DupMap(), multiset{At("C", "A"), At("P", "A"), In("C", "P")}) == [true, true, true, true]
  {
    var r := Encode(DupMap(), multiset{At("C", "A"), At("P", "A"), In("C", "P")});
    assert |r| == 4 && r[0] && r[1] && r[2] && r[3];
    FourTrue(r);
  }

  /** A four-bit state with every bit set is the all-true state. */
  lemma FourTrue(r: State)
    requires |r| == 4 && r[0] && r[1] && r[2] && r[3]
    ensures r == [true, true, true, true]
  {
  }

  /** Load(C, P, A) is applicable in that state: the cargo and the plane are both at A. */
  lemma TwiceToldApplicable()
    ensures Applicable(DupMap(), DupState(), LoadAction("C", "P", "A"))
  {
    var sm, s := DupMap(), DupState();
    assert Holds(sm, s, At("P", "A")) by { assert sm[2] == At("P", "A") && s[2]; }
    assert Holds(sm, s, At("C", "A")) by { assert sm[0] == At("C", "A") && s[0]; }
  }

  /** The clause list of that state holds `At(C, A)` twice and `At(P, A)` once. */
  lemma TwiceToldBag()
    ensures TrueBag(DupMap(), DupState()) == multiset{At("C", "A"), At("C", "A"), At("P", "A")}
  {
    var sm, s := DupMap(), DupState();
    assert sm[..3][..2][..1][..0] == [];
    assert TrueBag(sm[..3][..2][..1], s[..3][..2][..1]) == multiset{At("C", "A")};
    assert TrueBag(sm[..3][..2], s[..3][..2]) == multiset{At("C", "A"), At("C", "A")};
    assert TrueBag(sm[..3], s[..3]) == multiset{At("C", "A"), At("C", "A"), At("P", "A")};
  }

  /**
    The frame property for actions whose add and delete effects are disjoint
    (every grounded action, see `GroundedActionShape`), on a duplicate-free
    state map: add effects are true, delete effects false, all else unchanged.
   */
  lemma ResultFrame(p: Problem, s: State, act: Action, i: int)
    requires IsState(p, s) && Distinct(p.stateMap)
    requires Applicable(p.stateMap, s, act) && EffectsDisjoint(act)
    requires 0 <= i < |p.stateMap|
    ensures p.stateMap[i] in act.effectAdd ==> Result(p, s, act)[i]
    ensures p.stateMap[i] in act.effectRem ==> !Result(p, s, act)[i]
    ensures p.stateMap[i] !in act.effectAdd && p.stateMap[i] !in act.effectRem ==> Result(p, s, act)[i] == s[i]
  {
    DistinctConsistent(p.stateMap, s);
    HoldsAtIndex(p.stateMap, s, i);
    if p.stateMap[i] in act.effectRem {
      ResultRetract(p, s, act, i);
    }
  }

  /**
    With disjoint add and delete effects, the order in which the clause list
    is told and retracted does not matter.
   */
  lemma EffectOrderIrrelevant(kb: multiset<Fluent>, act: Action)
    requires EffectsDisjoint(act)
    ensures ApplyEffectsBag(kb, act) == (kb + multiset(act.effectAdd)) - multiset(act.effectRem)
  {
    var rem, add := multiset(act.effectRem), multiset(act.effectAdd);
    forall f ensures ApplyEffectsBag(kb, act)[f] == ((kb + add) - rem)[f] {
      if f in act.effectRem {
        assert f !in act.effectAdd;
      }
    }
  }

  // ---------------------------------------------------------------------------
  // Goal test

  /** Every fluent of `goal` holds in `s`; the first one that does not decides. */
  function AllHold(sm: seq<Fluent>, s: State, goal: seq<Fluent>): (r: bool)
    requires |s| == |sm|
    ensures r <==> forall g :: g in goal ==> Holds(sm, s, g)
    decreases |goal|
  {
    if |goal| == 0 then true
    else if !Holds(sm, s, goal[0]) then false
    else
      assert forall g :: g in goal ==> g == goal[0] || g in goal[1..];
      AllHold(sm, s, goal[1..])
  }

  /** `goal_test`: every goal fluent holds in `s`. */
  function GoalTest(p: Problem, s: State): (r: bool)
    requires IsState(p, s)
    ensures r <==> forall g :: g in p.goal ==> Holds(p.stateMap, s, g)
    ensures !r <==> exists g :: g in p.goal && g !in TrueFluents(p.stateMap, s)
  {
    AllHold(p.stateMap, s, p.goal)
  }

  // ---------------------------------------------------------------------------
  // Plans

  /** The state reached by applying the actions of `plan` in turn. */
  function Run(p: Problem, s: State, plan: seq<Action>): (r: State)
    requires IsState(p, s)
    ensures IsState(p, r)
    decreases |plan|
  {
    if |plan| == 0 then s else Run(p, Result(p, s, plan[0]), plan[1..])
  }

  /** Every state reachable from a consistent state is consistent. */
  lemma {:induction false} RunConsistent(p: Problem, s: State, plan: seq<Action>)
    requires IsState(p, s) && Consistent(p.stateMap, s)
    ensures Consistent(p.stateMap, Run(p, s, plan))
    decreases |plan|
  {
    if |plan| > 0 {
      RunConsistent(p, Result(p, s, plan[0]), plan[1..]);
    }
  }

  /** Unload(c, p, a) undoes Load(c, p, a) when the cargo was not already in the plane. */
  lemma UnloadUndoesLoad(p: Problem, s: State, c: string, pl: string, a: string)
    requires IsState(p, s) && Distinct(p.stateMap)
    requires c != pl && In(c, pl) in p.stateMap
    requires Applicable(p.stateMap, s, LoadAction(c, pl, a))
    requires !Holds(p.stateMap, s, In(c, pl))
    ensures Applicable(p.stateMap, Result(p, s, LoadAction(c, pl, a)), UnloadAction(c, pl, a))
    ensures Result(p, Result(p, s, LoadAction(c, pl, a)), UnloadAction(c, pl, a)) == s
  {
    UnloadApplicableAfterLoad(p, s, c, pl, a);
    UnloadRestores(p, s, c, pl, a);
  }

  /** Load(c, pl, a) puts the cargo in the plane, takes it off the airport, and changes nothing else. */
  lemma LoadEffect(p: Problem, s: State, c: string, pl: string, a: string)
    requires IsState(p, s) && Distinct(p.stateMap)
    requires Applicable(p.stateMap, s, LoadAction(c, pl, a))
    ensures var sm, s1 := p.stateMap, Result(p, s, LoadAction(c, pl, a));
      forall i :: 0 <= i < |sm| ==>
        s1[i] == (if sm[i] == In(c, pl) then true else if sm[i] == At(c, a) then false else s[i])
  {
    forall i | 0 <= i < |p.stateMap| {
      ResultFrame(p, s, LoadAction(c, pl, a), i);
    }
  }

  lemma UnloadApplicableAfterLoad(p: Problem, s: State, c: string, pl: string, a: string)
    requires IsState(p, s) && Distinct(p.stateMap)
    requires c != pl && In(c, pl) in p.stateMap
    requires Applicable(p.stateMap, s, LoadAction(c, pl, a))
    ensures Applicable(p.stateMap, Result(p, s, LoadAction(c, pl, a)), UnloadAction(c, pl, a))
  {
    var sm := p.stateMap;
    var load := LoadAction(c, pl, a);
    var s1 := Result(p, s, load);
    LoadEffect(p, s, c, pl, a);
    var k :| 0 <= k < |sm| && sm[k] == In(c, pl);
    assert Holds(sm, s1, In(c, pl)) by { assert s1[k]; }
    assert Holds(sm, s, At(pl, a)) by { assert At(pl, a) in load.precondPos; }
    var m :| 0 <= m < |sm| && sm[m] == At(pl, a) && s[m];
    assert Holds(sm, s1, At(pl, a)) by { assert s1[m]; }
    UnloadApplicableWhen(sm, s1, c, pl, a);
  }

  /** Unload(c, pl, a) is applicable exactly when the cargo is in the plane and the plane is at the airport. */
  lemma UnloadApplicableWhen(sm: seq<Fluent>, s: State, c: string, pl: string, a: string)
    requires |s| == |sm|
    ensures Applicable(sm, s, UnloadAction(c, pl, a)) <==> Holds(sm, s, In(c, pl)) && Holds(sm, s, At(pl, a))
  {
  }

  lemma UnloadRestores(p: Problem, s: State, c: string, pl: string, a: string)
    requires IsState(p, s) && Distinct(p.stateMap)
    requires c != pl && In(c, pl) in p.stateMap
    requires Applicable(p.stateMap, s, LoadAction(c, pl, a))
    requires !Holds(p.stateMap, s, In(c, pl))
    ensures Result(p, Result(p, s, LoadAction(c, pl, a)), UnloadAction(c, pl, a)) == s
  {
    var sm := p.stateMap;
    var s1 := Result(p, s, LoadAction(c, pl, a));
    var unload := UnloadAction(c, pl, a);
    LoadEffect(p, s, c, pl, a);
    UnloadApplicableAfterLoad(p, s, c, pl, a);
    var s2 := Result(p, s1, unload);
    forall i | 0 <= i < |sm|
      ensures s2[i] == s[i]
    {
      ResultFrame(p, s1, unload, i);
      DistinctConsistent(sm, s);
      HoldsAtIndex(sm, s, i);
    }
  }

  /** Flying back from `to` to `fr` undoes Fly(pl, fr, to) when the plane was not already at `to`. */
  lemma FlyBackUndoesFly(p: Problem, s: State, pl: string, fr: string, to: string)
    requires IsState(p, s) && Distinct(p.stateMap)
    requires fr != to && At(pl, to) in p.stateMap
    requires Applicable(p.stateMap, s, FlyAction(pl, fr, to))
    requires !Holds(p.stateMap, s, At(pl, to))
    ensures Applicable(p.stateMap, Result(p, s, FlyAction(pl, fr, to)), FlyAction(pl, to, fr))
    ensures Result(p, Result(p, s, FlyAction(pl, fr, to)), FlyAction(pl, to, fr)) == s
  {
    FlyBackApplicable(p, s, pl, fr, to);
    FlyBackRestores(p, s, pl, fr, to);
  }

  /** Fly(pl, fr, to) puts the plane at `to`, takes it off `fr`, and changes nothing else. */
  lemma FlyEffect(p: Problem, s: State, pl: string, fr: string, to: string)
    requires IsState(p, s) && Distinct(p.stateMap)
    requires fr != to && Applicable(p.stateMap, s, FlyAction(pl, fr, to))
    ensures var sm, s1 := p.stateMap, Result(p, s, FlyAction(pl, fr, to));
      forall i :: 0 <= i < |sm| ==>
        s1[i] == (if sm[i] == At(pl, to) then true else if sm[i] == At(pl, fr) then false else s[i])
  {
    forall i | 0 <= i < |p.stateMap| {
      ResultFrame(p, s, FlyAction(pl, fr, to), i);
    }
  }

  lemma FlyBackApplicable(p: Problem, s: State, pl: string, fr: string, to: string)
    requires IsState(p, s) && Distinct(p.stateMap)
    requires fr != to && At(pl, to) in p.stateMap
    requires Applicable(p.stateMap, s, FlyAction(pl, fr, to))
    ensures Applicable(p.stateMap, Result(p, s, FlyAction(pl, fr, to)), FlyAction(pl, to, fr))
  {
    var sm := p.stateMap;
    var s1 := Result(p, s, FlyAction(pl, fr, to));
    FlyEffect(p, s, pl, fr, to);
    var k :| 0 <= k < |sm| && sm[k] == At(pl, to);
    assert Holds(sm, s1, At(pl, to)) by { assert s1[k]; }
    FlyApplicableWhen(sm, s1, pl, to, fr);
  }

  /** Fly(pl, fr, to) is applicable exactly when the plane is at `fr`. */
  lemma FlyApplicableWhen(sm: seq<Fluent>, s: State, pl: string, fr: string, to: string)
    requires |s| == |sm|
    ensures Applicable(sm, s, FlyAction(pl, fr, to)) <==> Holds(sm, s, At(pl, fr))
  {
  }

  lemma FlyBackRestores(p: Problem, s: State, pl: string, fr: string, to: string)
    requires IsState(p, s) && Distinct(p.stateMap)
    requires fr != to && At(pl, to) in p.stateMap
    requires Applicable(p.stateMap, s, FlyAction(pl, fr, to))
    requires !Holds(p.stateMap, s, At(pl, to))
    ensures Result(p, Result(p, s, FlyAction(pl, fr, to)), FlyAction(pl, to, fr)) == s
  {
    var sm := p.stateMap;
    var s1 := Result(p, s, FlyAction(pl, fr, to));
    var back := FlyAction(pl, to, fr);
    FlyEffect(p, s, pl, fr, to);
    FlyBackApplicable(p, s, pl, fr, to);
    var s2 := Result(p, s1, back);
    forall i | 0 <= i < |sm|
      ensures s2[i] == s[i]
    {
      ResultFrame(p, s1, back, i);
      DistinctConsistent(sm, s);
      HoldsAtIndex(sm, s, i);
    }
  }
}

=== FILE: fluents.dfy ===
/**
  Ground propositions of the air-cargo domain, and states as boolean vectors
  aligned with a state map (the problem's fixed, ordered list of fluents).
 */
module Fluents {

  /** A ground fluent: `At(x, y)` says object x is at airport y, `In(x, y)` says cargo x is in plane y. */
  datatype Fluent = At(a: string, b: string) | In(a: string, b: string)

  /** One truth value per state-map index; `true` plays the role of the 'T' of `AirCargoProblem`'s state strings. */
  type State = seq<bool>

  /** No element occurs twice. */
  predicate Distinct<T(==)>(xs: seq<T>) {
    forall i, j :: 0 <= i < j < |xs| ==> xs[i] != xs[j]
  }

  /** The elements of a sequence, as a set. */
  function Elements<T>(xs: seq<T>): set<T> {
    set x | x in xs
  }

  /**
    The clauses of a knowledge base that has been told the positive part of
    the decoded state: the fluents sitting at true indices of the state map.
   */
  function TrueFluents(sm: seq<Fluent>, s: State): (r: set<Fluent>)
    requires |s| == |sm|
    ensures forall f :: f in r <==> exists i :: 0 <= i < |sm| && sm[i] == f && s[i]
    decreases |sm|
  {
    if |sm| == 0 then {}
    else
      var n := |sm| - 1;
      var prefix := TrueFluents(sm[..n], s[..n]);
      assert forall i :: 0 <= i < n ==> sm[..n][i] == sm[i] && s[..n][i] == s[i];
      prefix + (if s[n] then {sm[n]} else {})
  }

  /**
    The same knowledge base as a clause list, counted with multiplicity: a
    fluent sitting at two true indices of the state map is told twice. Its
    support is `TrueFluents`, and without duplicates in the state map every
    fluent is told at most once.
   */
  function TrueBag(sm: seq<Fluent>, s: State): (r: multiset<Fluent>)
    requires |s| == |sm|
    ensures forall f :: f in r <==> f in TrueFluents(sm, s)
    ensures Distinct(sm) ==> forall f :: r[f] <= 1
    decreases |sm|
  {
    if |sm| == 0 then multiset{}
    else
      var n := |sm| - 1;
      var prefix := TrueBag(sm[..n], s[..n]);
      DistinctPrefix(sm);
      assert Distinct(sm) ==> prefix[sm[n]] == 0;
      prefix + (if s[n] then multiset{sm[n]} else multiset{})
  }

  /** Dropping the last element keeps a sequence duplicate-free, and the last element does not occur before it. */
  lemma DistinctPrefix<T>(xs: seq<T>)
    requires |xs| > 0
    ensures Distinct(xs) ==> Distinct(xs[..|xs| - 1]) && xs[|xs| - 1] !in xs[..|xs| - 1]
  {
  }

  /** The true indices of `s` whose state-map entry is `f`. */
  ghost function TrueIndices(sm: seq<Fluent>, s: State, f: Fluent): set<int>
    requires |s| == |sm|
  {
    set i | 0 <= i < |sm| && sm[i] == f && s[i]
  }

  /** The clause list tells `f` once for every true index that carries it. */
  lemma {:induction false} TrueBagCount(sm: seq<Fluent>, s: State, f: Fluent)
    requires |s| == |sm|
    ensures TrueBag(sm, s)[f] == |TrueIndices(sm, s, f)|
    decreases |sm|
  {
    if |sm| > 0 {
      var n := |sm| - 1;
      TrueBagCount(sm[..n], s[..n], f);
      TrueBagSnoc(sm, s, f);
      TrueIndicesSnoc(sm, s, f);
    }
  }

  /** The last index adds one copy of `f` to the clause list when it is true and carries `f`. */
  lemma TrueBagSnoc(sm: seq<Fluent>, s: State, f: Fluent)
    requires |s| == |sm| > 0
    ensures var n := |sm| - 1;
      TrueBag(sm, s)[f] == TrueBag(sm[..n], s[..n])[f] + (if sm[n] == f && s[n] then 1 else 0)
  {
  }

  /** The last index adds itself to the true indices carrying `f` when it is true and carries `f`. */
  lemma TrueIndicesSnoc(sm: seq<Fluent>, s: State, f: Fluent)
    requires |s| == |sm| > 0
    ensures var n := |sm| - 1;
      |TrueIndices(sm, s, f)| == |TrueIndices(sm[..n], s[..n], f)| + (if sm[n] == f && s[n] then 1 else 0)
  {
    var n := |sm| - 1;
    var before := TrueIndices(sm[..n], s[..n], f);
    var here: set<int> := if sm[n] == f && s[n] then {n} else {};
    var whole := TrueIndices(sm, s, f);
    forall i | i in whole ensures i in before + here {
      if i < n {
        assert sm[..n][i] == sm[i] && s[..n][i] == s[i];
      }
    }
    forall i | i in before ensures i in whole && i != n {
      assert sm[..n][i] == sm[i] && s[..n][i] == s[i];
    }
    assert whole == before + here;
  }

  /** Fluent `f` holds in `s`: the knowledge base built from `s` contains it. */
  predicate Holds(sm: seq<Fluent>, s: State, f: Fluent)
    requires |s| == |sm|
  {
    f in TrueFluents(sm, s)
  }

  /** Indices that carry the same fluent carry the same truth value. */
  predicate Consistent(sm: seq<Fluent>, s: State)
    requires |s| == |sm|
  {
    forall i, j :: 0 <= i < |sm| && 0 <= j < |sm| && sm[i] == sm[j] ==> s[i] == s[j]
  }

  /** In a consistent state the fluent at index i holds exactly when bit i is set. */
  lemma HoldsAtIndex(sm: seq<Fluent>, s: State, i: int)
    requires |s| == |sm| && Consistent(sm, s) && 0 <= i < |sm|
    ensures Holds(sm, s, sm[i]) <==> s[i]
  {
  }

  /** A state map without duplicates makes every state consistent. */
  lemma DistinctConsistent(sm: seq<Fluent>, s: State)
    requires |s| == |sm| && Distinct(sm)
    ensures Consistent(sm, s)
  {
  }

  /** Two duplicate-free sequences with no element in common concatenate to a duplicate-free one. */
  lemma DistinctConcat<T>(xs: seq<T>, ys: seq<T>)
    requires Distinct(xs) && Distinct(ys)
    requires forall x :: x in xs ==> x !in ys
    ensures Distinct(xs + ys)
  {
    var zs := xs + ys;
    forall i, j | 0 <= i < j < |zs| ensures zs[i] != zs[j] {
      if i < |xs| && |xs| <= j {
        assert zs[i] in xs && zs[j] == ys[j - |xs|];
      }
    }
  }

  /** Removing the elements of a sequence that shares none of them changes nothing. */
  lemma DisjointMinus<T>(xs: seq<T>, ys: seq<T>)
    requires forall x :: x in xs ==> x !in ys
    ensures Elements(xs) - Elements(ys) == Elements(xs)
  {
  }

  /** A subset is no larger than its superset. */
  lemma SubsetSize<T>(a: set<T>, b: set<T>)
    requires a <= b
    ensures |a| <= |b|
  {
    assert b == a + (b - a);
  }

  /** A set drawn from a sequence is no larger than the sequence, and as large when there are no duplicates. */
  lemma {:induction false} ElementsSize<T>(xs: seq<T>)
    ensures |Elements(xs)| <= |xs|
    ensures Distinct(xs) ==> |Elements(xs)| == |xs|
  {
    if |xs| > 0 {
      var tail := xs[1..];
      ElementsSize(tail);
      assert Elements(xs) == {xs[0]} + Elements(tail);
      if Distinct(xs) {
        assert Distinct(tail) by {
          forall i, j | 0 <= i < j < |tail| ensures tail[i] != tail[j] {
            assert tail[i] == xs[i + 1] && tail[j] == xs[j + 1];
          }
        }
        assert xs[0] !in Elements(tail) by {
          forall k | 0 <= k < |tail| ensures tail[k] != xs[0] {
            assert tail[k] == xs[k + 1];
          }
        }
      }
    }
  }
}

=== FILE: grounding.dfy ===
/**
  Grounding of the three air-cargo action schemas (Load, Unload, Fly) into
  concrete actions over given cargo, plane and airport lists, in the order of
  the nested loops of `AirCargoProblem.get_actions`.
 */
module Grounding {
  import opened Fluents

  /** The name of a concrete action, with its arguments in the order `get_actions` writes them into the action's name. */
  datatype ActionName =
    | Load(cargo: string, plane: string, airport: string)
    | Unload(cargo: string, plane: string, airport: string)
    | Fly(plane: string, fr: string, to: string)

  /** A concrete action: name, positive and negative preconditions, add and delete effects. */
  datatype Action = Action(
    name: ActionName,
    precondPos: seq<Fluent>,
    precondNeg: seq<Fluent>,
    effectAdd: seq<Fluent>,
    effectRem: seq<Fluent>)

  /** Load(c, p, a): cargo and plane at the airport; the cargo moves into the plane. */
  function LoadAction(c: string, p: string, a: string): Action {
    Action(Load(c, p, a), [At(c, a), At(p, a)], [], [In(c, p)], [At(c, a)])
  }

  /** Unload(c, p, a): cargo in the plane, plane at the airport; the cargo moves to the airport. */
  function UnloadAction(c: string, p: string, a: string): Action {
    Action(Unload(c, p, a), [In(c, p), At(p, a)], [], [At(c, a)], [In(c, p)])
  }

  /** Fly(p, fr, to): the plane is at `fr`; it moves to `to`. */
  function FlyAction(p: string, fr: string, to: string): Action {
    Action(Fly(p, fr, to), [At(p, fr)], [], [At(p, to)], [At(p, fr)])
  }

  /** The three schemas; each is ground by three nested loops. */
  datatype Schema = LoadSchema | UnloadSchema | FlySchema

  /**
    The action a schema yields for loop variables (x, y, z), outermost first:
    (cargo, plane, airport) for Load and Unload, (from, to, plane) for Fly.
   */
  function Instantiate(k: Schema, x: string, y: string, z: string): Action {
    match k
    case LoadSchema => LoadAction(x, y, z)
    case UnloadSchema => UnloadAction(x, y, z)
    case FlySchema => FlyAction(z, x, y)
  }

  /** Whether the two outer loop variables reach the inner loop: Fly skips `fr == to`. */
  predicate Keep(k: Schema, x: string, y: string) {
    k != FlySchema || x != y
  }

  /** The innermost loop, for fixed outer variables x and y. */
  function Inner(k: Schema, x: string, y: string, zs: seq<string>): seq<Action> {
    seq(|zs|, l requires 0 <= l < |zs| => Instantiate(k, x, y, zs[l]))
  }

  /** The middle loop, for a fixed outer variable x. */
  function Middle(k: Schema, x: string, ys: seq<string>, zs: seq<string>): seq<Action>
    decreases |ys|
  {
    if |ys| == 0 then []
    else (if Keep(k, x, ys[0]) then Inner(k, x, ys[0], zs) else []) + Middle(k, x, ys[1..], zs)
  }

  /** All three loops. */
  function Ground(k: Schema, xs: seq<string>, ys: seq<string>, zs: seq<string>): seq<Action>
    decreases |xs|
  {
    if |xs| == 0 then []
    else Middle(k, xs[0], ys, zs) + Ground(k, xs[1..], ys, zs)
  }

  function LoadActions(cargos: seq<string>, planes: seq<string>, airports: seq<string>): seq<Action> {
    Ground(LoadSchema, cargos, planes, airports)
  }

  function UnloadActions(cargos: seq<string>, planes: seq<string>, airports: seq<string>): seq<Action> {
    Ground(UnloadSchema, cargos, planes, airports)
  }

  function FlyActions(planes: seq<string>, airports: seq<string>): seq<Action> {
    Ground(FlySchema, airports, airports, planes)
  }

  /** Every concrete action of the problem: all loads, then all unloads, then all flights. */
  function GetActions(cargos: seq<string>, planes: seq<string>, airports: seq<string>): seq<Action> {
    LoadActions(cargos, planes, airports) + UnloadActions(cargos, planes, airports) + FlyActions(planes, airports)
  }

  /**
    Reference definition of a grounded action, independent of loop order: a
    schema instance whose arguments come from the right lists (and, for Fly,
    whose two airports differ).
   */
  predicate IsGroundAction(act: Action, cargos: seq<string>, planes: seq<string>, airports: seq<string>) {
    match act.name
    case Load(c, p, a) => c in cargos && p in planes && a in airports && act == LoadAction(c, p, a)
    case Unload(c, p, a) => c in cargos && p in planes && a in airports && act == UnloadAction(c, p, a)
    case Fly(p, fr, to) => p in planes && fr in airports && to in airports && fr != to && act == FlyAction(p, fr, to)
  }

  /** No fluent is both added and deleted. */
  predicate EffectsDisjoint(act: Action) {
    forall f :: f in act.effectAdd ==> f !in act.effectRem
  }

  // ---------------------------------------------------------------------------
  // Cardinality

  /** How many (x, y) pairs of the two outer loops reach the inner loop, for a fixed x. */
  function KeptWith(k: Schema, x: string, ys: seq<string>): nat
    decreases |ys|
  {
    if |ys| == 0 then 0 else (if Keep(k, x, ys[0]) then 1 else 0) + KeptWith(k, x, ys[1..])
  }

  /** How many (x, y) pairs of the two outer loops reach the inner loop. */
  function KeptPairs(k: Schema, xs: seq<string>, ys: seq<string>): nat
    decreases |xs|
  {
    if |xs| == 0 then 0 else KeptWith(k, xs[0], ys) + KeptPairs(k, xs[1..], ys)
  }

  lemma {:induction false} MiddleLength(k: Schema, x: string, ys: seq<string>, zs: seq<string>)
    ensures |Middle(k, x, ys, zs)| == KeptWith(k, x, ys) * |zs|
    decreases |ys|
  {
    if |ys| > 0 {
      MiddleLength(k, x, ys[1..], zs);
      var head := if Keep(k, x, ys[0]) then 1 else 0;
      assert |(if Keep(k, x, ys[0]) then Inner(k, x, ys[0], zs) else [])| == head * |zs|;
      MulDistributes(head, KeptWith(k, x, ys[1..]), |zs|);
    }
  }

  /** The product of two naturals is a natural. */
  lemma MulNonNegative(a: int, b: int)
    requires 0 <= a && 0 <= b
    ensures 0 <= a * b
  {
  }

  /** (a + b)·c = a·c + b·c. */
  lemma MulDistributes(a: int, b: int, c: int)
    ensures (a + b) * c == a * c + b * c
  {
  }

  /** a·b·c = c·a·b. */
  lemma MulRotate(a: int, b: int, c: int)
    ensures a * b * c == c * a * b
  {
  }

  /** The grounder yields one action per kept outer pair and inner value. */
  lemma {:induction false} GroundLength(k: Schema, xs: seq<string>, ys: seq<string>, zs: seq<string>)
    ensures |Ground(k, xs, ys, zs)| == KeptPairs(k, xs, ys) * |zs|
    decreases |xs|
  {
    if |xs| > 0 {
      MiddleLength(k, xs[0], ys, zs);
      GroundLength(k, xs[1..], ys, zs);
      MulDistributes(KeptWith(k, xs[0], ys), KeptPairs(k, xs[1..], ys), |zs|);
    }
  }

  lemma {:induction false} KeptWithAll(k: Schema, x: string, ys: seq<string>)
    requires k != FlySchema
    ensures KeptWith(k, x, ys) == |ys|
    decreases |ys|
  {
    if |ys| > 0 {
      KeptWithAll(k, x, ys[1..]);
    }
  }

  lemma {:induction false} KeptPairsAll(k: Schema, xs: seq<string>, ys: seq<string>)
    requires k != FlySchema
    ensures KeptPairs(k, xs, ys) == |xs| * |ys|
    decreases |xs|
  {
    if |xs| > 0 {
      KeptWithAll(k, xs[0], ys);
      KeptPairsAll(k, xs[1..], ys);
      MulDistributes(1, |xs| - 1, |ys|);
    }
  }

  lemma {:induction false} KeptWithFly(x: string, ys: seq<string>)
    requires Distinct(ys)
    ensures KeptWith(FlySchema, x, ys) == if x in ys then |ys| - 1 else |ys|
    decreases |ys|
  {
    if |ys| > 0 {
      KeptWithFly(x, ys[1..]);
      assert x in ys <==> x == ys[0] || x in ys[1..];
      if x == ys[0] {
        assert x !in ys[1..] by {
          forall j | 0 <= j < |ys[1..]| ensures ys[1..][j] != x {
            assert ys[1..][j] == ys[j + 1];
          }
        }
      }
    }
  }

  lemma {:induction false} KeptPairsFly(xs: seq<string>, ys: seq<string>)
    requires Distinct(ys)
    requires forall x :: x in xs ==> x in ys
    ensures KeptPairs(FlySchema, xs, ys) == |xs| * (|ys| - 1)
    decreases |xs|
  {
    if |xs| > 0 {
      KeptWithFly(xs[0], ys);
      KeptPairsFly(xs[1..], ys);
      MulDistributes(1, |xs| - 1, |ys| - 1);
    }
  }

  /** There are |cargos|·|planes|·|airports| Load actions. */
  lemma LoadCount(cargos: seq<string>, planes: seq<string>, airports: seq<string>)
    ensures |LoadActions(cargos, planes, airports)| == |cargos| * |planes| * |airports|
  {
    GroundLength(LoadSchema, cargos, planes, airports);
    KeptPairsAll(LoadSchema, cargos, planes);
  }

  /** There are |cargos|·|planes|·|airports| Unload actions. */
  lemma UnloadCount(cargos: seq<string>, planes: seq<string>, airports: seq<string>)
    ensures |UnloadActions(cargos, planes, airports)| == |cargos| * |planes| * |airports|
  {
    GroundLength(UnloadSchema, cargos, planes, airports);
    KeptPairsAll(UnloadSchema, cargos, planes);
  }

  /** With distinct airport names there are |planes|·|airports|·(|airports|-1) Fly actions. */
  lemma FlyCount(planes: seq<string>, airports: seq<string>)
    requires Distinct(airports)
    ensures |FlyActions(planes, airports)| == |planes| * |airports| * (|airports| - 1)
  {
    GroundLength(FlySchema, airports, airports, planes);
    KeptPairsFly(airports, airports);
    MulRotate(|airports|, |airports| - 1, |planes|);
  }

  // ---------------------------------------------------------------------------
  // Order

  lemma {:induction false} MiddleIndex(k: Schema, x: string, ys: seq<string>, zs: seq<string>, j: int, l: int)
    requires k != FlySchema
    requires 0 <= j < |ys| && 0 <= l < |zs|
    ensures 0 <= j * |zs| + l < |Middle(k, x, ys, zs)|
    ensures Middle(k, x, ys, zs)[j * |zs| + l] == Instantiate(k, x, ys[j], zs[l])
    decreases |ys|
  {
    var inner := Inner(k, x, ys[0], zs);
    assert Middle(k, x, ys, zs) == inner + Middle(k, x, ys[1..], zs);
    if j > 0 {
      MiddleIndex(k, x, ys[1..], zs, j - 1, l);
      MulNonNegative(j - 1, |zs|);
      MulDistributes(1, j - 1, |zs|);
      assert j * |zs| + l == |inner| + ((j - 1) * |zs| + l);
    }
  }

  /** Row i of a table with rows of ny·nz entries starts ny·nz after row i - 1. */
  lemma IndexShift(i: int, j: int, l: int, ny: int, nz: int)
    requires 0 < i && 0 <= j && 0 <= l && 0 <= ny && 0 <= nz
    ensures 0 <= ((i - 1) * ny + j) * nz + l
    ensures (i * ny + j) * nz + l == ny * nz + (((i - 1) * ny + j) * nz + l)
  {
    MulNonNegative(i - 1, ny);
    MulNonNegative((i - 1) * ny + j, nz);
    MulDistributes(1, i - 1, ny);
    MulDistributes(ny, (i - 1) * ny + j, nz);
  }

  /** Indexing past the first part of a concatenation indexes the second part. */
  lemma ConcatIndex<T>(a: seq<T>, b: seq<T>, n: int)
    requires 0 <= n < |b|
    ensures (a + b)[|a| + n] == b[n]
  {
  }

  /**
    Position of loop indices (i, j, l) in a table with rows of ny·nz entries,
    counted row by row: it equals (i·ny + j)·nz + l (`OffsetFormula`).
   */
  function Offset(i: nat, j: int, l: int, ny: int, nz: int): int
    decreases i
  {
    if i == 0 then j * nz + l else ny * nz + Offset(i - 1, j, l, ny, nz)
  }

  lemma {:induction false} OffsetFormula(i: nat, j: int, l: int, ny: int, nz: int)
    requires 0 <= j && 0 <= l && 0 <= ny && 0 <= nz
    ensures Offset(i, j, l, ny, nz) == (i * ny + j) * nz + l
    decreases i
  {
    if i > 0 {
      OffsetFormula(i - 1, j, l, ny, nz);
      IndexShift(i, j, l, ny, nz);
    }
  }

  /** Without skipped pairs, the action for loop indices (i, j, l) sits at position (i·|ys| + j)·|zs| + l. */
  lemma {:induction false} GroundIndex(k: Schema, xs: seq<string>, ys: seq<string>, zs: seq<string>, i: nat, j: int, l: int)
    requires k != FlySchema
    requires i < |xs| && 0 <= j < |ys| && 0 <= l < |zs|
    ensures 0 <= Offset(i, j, l, |ys|, |zs|) < |Ground(k, xs, ys, zs)|
    ensures Ground(k, xs, ys, zs)[Offset(i, j, l, |ys|, |zs|)] == Instantiate(k, xs[i], ys[j], zs[l])
    decreases |xs|
  {
    if i > 0 {
      GroundIndex(k, xs[1..], ys, zs, i - 1, j, l);
      assert xs[1..][i - 1] == xs[i];
      GroundIndexShift(k, xs, ys, zs, i, j, l);
    } else {
      var n := j * |zs| + l;
      assert Offset(i, j, l, |ys|, |zs|) == n;
      MiddleIndex(k, xs[0], ys, zs, j, l);
      GroundIndexFirst(k, xs, ys, zs, n);
    }
  }

  /** The first outer value's actions open the grounding. */
  lemma GroundIndexFirst(k: Schema, xs: seq<string>, ys: seq<string>, zs: seq<string>, n: int)
    requires 0 < |xs| && 0 <= n < |Middle(k, xs[0], ys, zs)|
    ensures n < |Ground(k, xs, ys, zs)| && Ground(k, xs, ys, zs)[n] == Middle(k, xs[0], ys, zs)[n]
  {
    assert Ground(k, xs, ys, zs) == Middle(k, xs[0], ys, zs) + Ground(k, xs[1..], ys, zs);
  }

  /** An action of the grounding of xs[1..] is found one block of |ys|·|zs| later in the grounding of xs. */
  lemma GroundIndexShift(k: Schema, xs: seq<string>, ys: seq<string>, zs: seq<string>, i: nat, j: int, l: int)
    requires k != FlySchema && 0 < i < |xs|
    requires 0 <= Offset(i - 1, j, l, |ys|, |zs|) < |Ground(k, xs[1..], ys, zs)|
    ensures 0 <= Offset(i, j, l, |ys|, |zs|) < |Ground(k, xs, ys, zs)|
    ensures Ground(k, xs, ys, zs)[Offset(i, j, l, |ys|, |zs|)] == Ground(k, xs[1..], ys, zs)[Offset(i - 1, j, l, |ys|, |zs|)]
  {
    var middle := Middle(k, xs[0], ys, zs);
    var rest := Ground(k, xs[1..], ys, zs);
    assert Ground(k, xs, ys, zs) == middle + rest;
    MiddleLength(k, xs[0], ys, zs);
    KeptWithAll(k, xs[0], ys);
    ConcatIndex(middle, rest, Offset(i - 1, j, l, |ys|, |zs|));
  }

  /**
    The action list is all Loads, then all Unloads, then all Flys: its length
    is 2·|cargos|·|planes|·|airports| plus the number of flights, and the
    flights sit at its end in their own order.
   */
  lemma GetActionsBlocks(cargos: seq<string>, planes: seq<string>, airports: seq<string>)
    ensures var n := |cargos| * |planes| * |airports|;
      && |GetActions(cargos, planes, airports)| == 2 * n + |FlyActions(planes, airports)|
      && GetActions(cargos, planes, airports)[..n] == LoadActions(cargos, planes, airports)
      && GetActions(cargos, planes, airports)[n..2 * n] == UnloadActions(cargos, planes, airports)
      && GetActions(cargos, planes, airports)[2 * n..] == FlyActions(planes, airports)
  {
    LoadCount(cargos, planes, airports);
    UnloadCount(cargos, planes, airports);
    var loads := LoadActions(cargos, planes, airports);
    var unloads := UnloadActions(cargos, planes, airports);
    var acts := GetActions(cargos, planes, airports);
    assert acts == (loads + unloads) + FlyActions(planes, airports);
    assert acts[..|loads|] == loads;
    assert acts[|loads|..|loads| + |unloads|] == unloads;
  }

  /** With distinct airport names the action list has 2·|cargos|·|planes|·|airports| + |planes|·|airports|·(|airports|-1) entries. */
  lemma ActionCount(cargos: seq<string>, planes: seq<string>, airports: seq<string>)
    requires Distinct(airports)
    ensures |GetActions(cargos, planes, airports)| ==
      2 * (|cargos| * |planes| * |airports|) + |planes| * |airports| * (|airports| - 1)
  {
    GetActionsBlocks(cargos, planes, airports);
    FlyCount(planes, airports);
  }

  /**
    Load(cargos[c], planes[p], airports[a]) sits at position
    Offset(c, p, a, |planes|, |airports|) = (c·|planes| + p)·|airports| + a of
    the action list, and the matching Unload sits |cargos|·|planes|·|airports|
    later: cargo-major, then plane, then airport order.
   */
  lemma GetActionsAt(cargos: seq<string>, planes: seq<string>, airports: seq<string>, c: nat, p: int, a: int)
    requires c < |cargos| && 0 <= p < |planes| && 0 <= a < |airports|
    ensures var n := |cargos| * |planes| * |airports|;
      var idx := Offset(c, p, a, |planes|, |airports|);
      && 0 <= idx < n <= |GetActions(cargos, planes, airports)| - n
      && GetActions(cargos, planes, airports)[idx] == LoadAction(cargos[c], planes[p], airports[a])
      && GetActions(cargos, planes, airports)[n + idx] == UnloadAction(cargos[c], planes[p], airports[a])
  {
    LoadCount(cargos, planes, airports);
    UnloadCount(cargos, planes, airports);
    GroundIndex(LoadSchema, cargos, planes, airports, c, p, a);
    GroundIndex(UnloadSchema, cargos, planes, airports, c, p, a);
    BlockIndex(LoadActions(cargos, planes, airports), UnloadActions(cargos, planes, airports),
      FlyActions(planes, airports), Offset(c, p, a, |planes|, |airports|));
  }

  /** In a list made of two equal-length blocks and a tail, position idx of the first block and the same position of the second. */
  lemma BlockIndex<T>(first: seq<T>, second: seq<T>, tail: seq<T>, idx: int)
    requires 0 <= idx < |first| == |second|
    ensures |first| <= |first + second + tail| - |first|
    ensures (first + second + tail)[idx] == first[idx]
    ensures (first + second + tail)[|first| + idx] == second[idx]
  {
  }

  // ---------------------------------------------------------------------------
  // Membership

  lemma {:induction false} MiddleMembership(k: Schema, x: string, ys: seq<string>, zs: seq<string>, act: Action)
    ensures act in Middle(k, x, ys, zs) <==>
      exists y, z :: y in ys && z in zs && Keep(k, x, y) && act == Instantiate(k, x, y, z)
    decreases |ys|
  {
    if |ys| > 0 {
      MiddleMembership(k, x, ys[1..], zs, act);
      InnerMembership(k, x, ys[0], zs, act);
      var inner := if Keep(k, x, ys[0]) then Inner(k, x, ys[0], zs) else [];
      assert act in Middle(k, x, ys, zs) <==> act in inner || act in Middle(k, x, ys[1..], zs);
      assert forall y :: y in ys <==> y == ys[0] || y in ys[1..];
    }
  }

  /** The inner loop yields exactly the instances over the listed inner values. */
  lemma InnerMembership(k: Schema, x: string, y: string, zs: seq<string>, act: Action)
    ensures act in Inner(k, x, y, zs) <==> exists z :: z in zs && act == Instantiate(k, x, y, z)
  {
    if z :| z in zs && act == Instantiate(k, x, y, z) {
      var l :| 0 <= l < |zs| && zs[l] == z;
      assert Inner(k, x, y, zs)[l] == act;
    }
  }

  lemma {:induction false} GroundMembership(k: Schema, xs: seq<string>, ys: seq<string>, zs: seq<string>, act: Action)
    ensures act in Ground(k, xs, ys, zs) <==>
      exists x, y, z :: x in xs && y in ys && z in zs && Keep(k, x, y) && act == Instantiate(k, x, y, z)
    decreases |xs|
  {
    if |xs| > 0 {
      GroundMembership(k, xs[1..], ys, zs, act);
      MiddleMembership(k, xs[0], ys, zs, act);
      if x, y, z :| x in xs && y in ys && z in zs && Keep(k, x, y) && act == Instantiate(k, x, y, z) {
        if x != xs[0] {
          assert x in xs[1..];
        }
      }
    }
  }

  /** An action is grounded exactly when it is a schema instance over the problem's objects. */
  lemma GetActionsMembership(cargos: seq<string>, planes: seq<string>, airports: seq<string>, act: Action)
    ensures act in GetActions(cargos, planes, airports) <==> IsGroundAction(act, cargos, planes, airports)
  {
    GroundMembership(LoadSchema, cargos, planes, airports, act);
    GroundMembership(UnloadSchema, cargos, planes, airports, act);
    GroundMembership(FlySchema, airports, airports, planes, act);
    if IsGroundAction(act, cargos, planes, airports) {
      match act.name
      case Load(c, p, a) =>
        assert act == Instantiate(LoadSchema, c, p, a);
      case Unload(c, p, a) =>
        assert act == Instantiate(UnloadSchema, c, p, a);
      case Fly(p, fr, to) =>
        assert act == Instantiate(FlySchema, fr, to, p);
    }
  }

  /**
    Every grounded action has no negative preconditions, exactly one add and
    one delete effect, and the two effects differ.
   */
  lemma GroundedActionShape(cargos: seq<string>, planes: seq<string>, airports: seq<string>, act: Action)
    requires act in GetActions(cargos, planes, airports)
    ensures act.precondNeg == []
    ensures |act.effectAdd| == 1 && |act.effectRem| == 1
    ensures EffectsDisjoint(act)
  {
    GetActionsMembership(cargos, planes, airports, act);
  }
}

=== FILE: heuristics.dfy ===
/**
  The two syntactic heuristics of the air-cargo problem: the constant `h_1`
  and the ignore-preconditions count of goal fluents that are still false,
  with the facts that make the latter admissible.
 */
module Heuristics {
  import opened Fluents
  import opened Grounding
  import opened AirCargo

  /** `h_1`: the constant estimate 1, whatever the state. */
  function H1(p: Problem, s: State): nat {
    1
  }

  /** The state-map indices below `n` whose fluent is a goal and is false in `s`. */
  ghost function FalseGoalIndices(sm: seq<Fluent>, s: State, goal: seq<Fluent>, n: nat): set<int>
    requires |s| == |sm| && n <= |sm|
  {
    set i | 0 <= i < n && sm[i] in goal && !s[i]
  }

  /** The goal fluents at those indices. */
  ghost function FalseGoalFluents(sm: seq<Fluent>, s: State, goal: seq<Fluent>, n: nat): set<Fluent>
    requires |s| == |sm| && n <= |sm|
  {
    set i | 0 <= i < n && sm[i] in goal && !s[i] :: sm[i]
  }

  /** Counts, over the first `n` state-map indices, the goal fluents that are false in `s`. */
  function CountFalseGoals(sm: seq<Fluent>, s: State, goal: seq<Fluent>, n: nat): (r: nat)
    requires |s| == |sm| && n <= |sm|
    ensures r == |FalseGoalIndices(sm, s, goal, n)|
    ensures r <= n
    decreases n
  {
    if n == 0 then 0
    else
      var before := FalseGoalIndices(sm, s, goal, n - 1);
      var here: set<int> := if sm[n - 1] in goal && !s[n - 1] then {n - 1} else {};
      assert FalseGoalIndices(sm, s, goal, n) == before + here;
      assert before !! here;
      CountFalseGoals(sm, s, goal, n - 1) + (if sm[n - 1] in goal && !s[n - 1] then 1 else 0)
  }

  /** `h_ignore_preconditions`: the number of state-map indices holding a goal fluent that is false. */
  function HIgnorePreconditions(p: Problem, s: State): (r: nat)
    requires IsState(p, s)
    ensures r == |FalseGoalIndices(p.stateMap, s, p.goal, |p.stateMap|)|
    ensures r <= |p.stateMap|
  {
    CountFalseGoals(p.stateMap, s, p.goal, |p.stateMap|)
  }

  /** Without duplicates in the state map, distinct false-goal indices carry distinct goal fluents. */
  lemma {:induction false} FalseGoalFluentsSize(sm: seq<Fluent>, s: State, goal: seq<Fluent>, n: nat)
    requires |s| == |sm| && n <= |sm| && Distinct(sm)
    ensures |FalseGoalFluents(sm, s, goal, n)| == CountFalseGoals(sm, s, goal, n)
    decreases n
  {
    if n > 0 {
      FalseGoalFluentsSize(sm, s, goal, n - 1);
      FalseGoalFluentsStep(sm, s, goal, n);
    }
  }

  /** Index n - 1 adds its fluent to the false goal fluents below n - 1 when it is a false goal, and that fluent is new. */
  lemma FalseGoalFluentsStep(sm: seq<Fluent>, s: State, goal: seq<Fluent>, n: nat)
    requires |s| == |sm| && 0 < n <= |sm| && Distinct(sm)
    ensures var before := FalseGoalFluents(sm, s, goal, n - 1);
      && sm[n - 1] !in before
      && FalseGoalFluents(sm, s, goal, n) == before + (if sm[n - 1] in goal && !s[n - 1] then {sm[n - 1]} else {})
  {
  }

  /** With a duplicate-free state map, the estimate never exceeds the number of goal fluents. */
  lemma HeuristicAtMostGoals(p: Problem, s: State)
    requires IsState(p, s) && Distinct(p.stateMap)
    ensures HIgnorePreconditions(p, s) <= |p.goal|
  {
    var sm := p.stateMap;
    FalseGoalFluentsSize(sm, s, p.goal, |sm|);
    SubsetSize(FalseGoalFluents(sm, s, p.goal, |sm|), Elements(p.goal));
    ElementsSize(p.goal);
  }

  /**
    With a duplicate-free state map that lists every goal fluent, the
    estimate is the number of goal fluents the state does not make true.
   */
  lemma HeuristicCountsFalseGoals(p: Problem, s: State)
    requires IsState(p, s) && Distinct(p.stateMap)
    requires forall g :: g in p.goal ==> g in p.stateMap
    ensures HIgnorePreconditions(p, s) == |Elements(p.goal) - TrueFluents(p.stateMap, s)|
  {
    var sm := p.stateMap;
    FalseGoalFluentsSize(sm, s, p.goal, |sm|);
    DistinctConsistent(sm, s);
    forall f ensures f in FalseGoalFluents(sm, s, p.goal, |sm|) <==> f in Elements(p.goal) - TrueFluents(sm, s) {
      if f in Elements(p.goal) - TrueFluents(sm, s) {
        var k :| 0 <= k < |sm| && sm[k] == f;
        HoldsAtIndex(sm, s, k);
      }
      if f in FalseGoalFluents(sm, s, p.goal, |sm|) {
        var k :| 0 <= k < |sm| && sm[k] in p.goal && !s[k] && sm[k] == f;
        HoldsAtIndex(sm, s, k);
      }
    }
    assert FalseGoalFluents(sm, s, p.goal, |sm|) == Elements(p.goal) - TrueFluents(sm, s);
  }

  /**
    When every goal fluent has an index in the state map and the state is
    consistent, the estimate is zero exactly at goal states.
   */
  lemma HeuristicZeroIffGoal(p: Problem, s: State)
    requires IsState(p, s) && Consistent(p.stateMap, s)
    requires forall g :: g in p.goal ==> g in p.stateMap
    ensures HIgnorePreconditions(p, s) == 0 <==> GoalTest(p, s)
  {
    var sm := p.stateMap;
    var falses := FalseGoalIndices(sm, s, p.goal, |sm|);
    if HIgnorePreconditions(p, s) == 0 {
      assert falses == {};
      forall g | g in p.goal ensures Holds(sm, s, g) {
        var k :| 0 <= k < |sm| && sm[k] == g;
        assert k !in falses;
      }
    }
    if GoalTest(p, s) {
      forall i | i in falses ensures false {
        HoldsAtIndex(sm, s, i);
      }
      assert falses == {};
    }
  }

  /**
    One step lowers the estimate by at most one when the action adds at most
    one fluent and the state map has no duplicates.
   */
  lemma HeuristicStepBound(p: Problem, s: State, act: Action)
    requires IsState(p, s) && Distinct(p.stateMap)
    requires |act.effectAdd| <= 1
    ensures HIgnorePreconditions(p, s) <= HIgnorePreconditions(p, Result(p, s, act)) + 1
  {
    var sm := p.stateMap;
    var r := Result(p, s, act);
    var before := FalseGoalIndices(sm, s, p.goal, |sm|);
    var after := FalseGoalIndices(sm, r, p.goal, |sm|);
    var added := set i | 0 <= i < |sm| && sm[i] in act.effectAdd;
    DistinctConsistent(sm, s);
    forall i | i in before ensures i in after + added {
      HoldsAtIndex(sm, s, i);
    }
    SubsetSize(before, after + added);
    AtMostOneIndex(sm, act.effectAdd);
  }

  /** In a duplicate-free state map, at most one index holds a fluent of a list of length at most one. */
  lemma AtMostOneIndex(sm: seq<Fluent>, fs: seq<Fluent>)
    requires Distinct(sm) && |fs| <= 1
    ensures |set i | 0 <= i < |sm| && sm[i] in fs| <= 1
  {
    var hit := set i | 0 <= i < |sm| && sm[i] in fs;
    if k :| k in hit {
      assert forall j :: j in hit ==> sm[j] == fs[0];
      assert hit <= {k};
      SubsetSize(hit, {k});
    } else {
      assert hit == {};
    }
  }

  /**
    Admissibility: from a state where the estimate is h, any plan of actions
    that each add at most one fluent and that ends in a goal state has at
    least h actions (inapplicable actions count as no-ops).
   */
  lemma {:induction false} PlanLowerBound(p: Problem, s: State, plan: seq<Action>)
    requires IsState(p, s) && Distinct(p.stateMap)
    requires forall g :: g in p.goal ==> g in p.stateMap
    requires forall i :: 0 <= i < |plan| ==> |plan[i].effectAdd| <= 1
    requires GoalTest(p, Run(p, s, plan))
    ensures HIgnorePreconditions(p, s) <= |plan|
    decreases |plan|
  {
    DistinctConsistent(p.stateMap, s);
    if |plan| == 0 {
      HeuristicZeroIffGoal(p, s);
    } else {
      var next := Result(p, s, plan[0]);
      assert forall i :: 0 <= i < |plan[1..]| ==> plan[1..][i] == plan[i + 1];
      PlanLowerBound(p, next, plan[1..]);
      HeuristicStepBound(p, s, plan[0]);
    }
  }

  /**
    The same bound for plans drawn from the problem's own action list, every
    one of which adds exactly one fluent.
   */
  lemma AdmissibleOnGroundedPlans(p: Problem, s: State, plan: seq<Action>)
    requires Valid(p) && IsState(p, s) && Distinct(p.stateMap)
    requires forall g :: g in p.goal ==> g in p.stateMap
    requires forall i :: 0 <= i < |plan| ==> plan[i] in p.actionsList
    requires GoalTest(p, Run(p, s, plan))
    ensures HIgnorePreconditions(p, s) <= |plan|
  {
    forall i | 0 <= i < |plan| ensures |plan[i].effectAdd| <= 1 {
      GroundedActionShape(p.cargos, p.planes, p.airports, plan[i]);
    }
    PlanLowerBound(p, s, plan);
  }

  /** `h_1` is not admissible: at a goal state no action is needed, yet it answers 1. */
  lemma ConstantOverestimatesAtGoal(p: Problem, s: State)
    requires IsState(p, s) && GoalTest(p, s)
    ensures var noActions: seq<Action> := []; GoalTest(p, Run(p, s, noActions)) && H1(p, s) > |noActions|
  {
  }
}

=== FILE: instances.dfy ===
/**
  The three benchmark problems `air_cargo_p1`, `air_cargo_p2` and
  `air_cargo_p3`, with their object lists, initial fluents and goals, and the
  facts the rest of the model predicts about them.
 */
module Instances {
  import opened Fluents
  import opened Grounding
  import opened AirCargo
  import opened Heuristics

  // The object names of the three problems.
  const C1: string := "C1"
  const C2: string := "C2"
  const C3: string := "C3"
  const C4: string := "C4"
  const P1: string := "P1"
  const P2: string := "P2"
  const P3: string := "P3"
  const JFK: string := "JFK"
  const SFO: string := "SFO"
  const ATL: string := "ATL"
  const ORD: string := "ORD"

  /** `air_cargo_p1`: two cargos, two planes, two airports, with every negative fluent listed by hand. */
  function AirCargoP1(): Problem {
    NewProblem([C1, C2], [P1, P2], [JFK, SFO], P1Pos(), P1Neg(), P1Goal())
  }

  /** Problem 1's positive initial fluents. */
  function P1Pos(): seq<Fluent> {
    [At(C1, SFO), At(C2, JFK), At(P1, SFO), At(P2, JFK)]
  }

  /** Problem 1's negative initial fluents, in the order they are listed. */
  function P1Neg(): seq<Fluent> {
    [At(C2, SFO), In(C2, P1), In(C2, P2), At(C1, JFK),
     In(C1, P1), In(C1, P2), At(P1, JFK), At(P2, SFO)]
  }

  /** Problem 1's goal. */
  function P1Goal(): seq<Fluent> {
    [At(C1, JFK), At(C2, SFO)]
  }

  /** The `At` fluents, airport by airport and object by object, that are not already positive. */
  function NegativeAt(airports: seq<string>, objects: seq<string>, pos: seq<Fluent>): seq<Fluent>
    decreases |airports|
  {
    if |airports| == 0 then []
    else NegativeAtOne(airports[0], objects, pos) + NegativeAt(airports[1..], objects, pos)
  }

  function NegativeAtOne(airport: string, objects: seq<string>, pos: seq<Fluent>): seq<Fluent>
    decreases |objects|
  {
    if |objects| == 0 then []
    else
      (if At(objects[0], airport) in pos then [] else [At(objects[0], airport)])
      + NegativeAtOne(airport, objects[1..], pos)
  }

  /** Every `In` fluent, plane by plane and cargo by cargo. */
  function NegativeIn(planes: seq<string>, cargos: seq<string>): seq<Fluent>
    decreases |planes|
  {
    if |planes| == 0 then []
    else seq(|cargos|, i requires 0 <= i < |cargos| => In(cargos[i], planes[0])) + NegativeIn(planes[1..], cargos)
  }

  /** The `At` fluents of one airport that the loop adds: every listed object there, unless positive. */
  lemma {:induction false} NegativeAtOneFacts(airport: string, objects: seq<string>, pos: seq<Fluent>)
    ensures forall f :: f in NegativeAtOne(airport, objects, pos) <==>
      f.At? && f.a in objects && f.b == airport && f !in pos
    ensures Distinct(objects) ==> Distinct(NegativeAtOne(airport, objects, pos))
    decreases |objects|
  {
    if |objects| > 0 {
      var tail := objects[1..];
      NegativeAtOneFacts(airport, tail, pos);
      var head := if At(objects[0], airport) in pos then [] else [At(objects[0], airport)];
      var rest := NegativeAtOne(airport, tail, pos);
      assert NegativeAtOne(airport, objects, pos) == head + rest;
      assert forall o :: o in objects <==> o == objects[0] || o in tail;
      if Distinct(objects) {
        assert objects[0] !in tail by {
          forall k | 0 <= k < |tail| ensures tail[k] != objects[0] {
            assert tail[k] == objects[k + 1];
          }
        }
        assert Distinct(tail) by {
          forall i, j | 0 <= i < j < |tail| ensures tail[i] != tail[j] {
            assert tail[i] == objects[i + 1] && tail[j] == objects[j + 1];
          }
        }
        DistinctConcat(head, rest);
      }
    }
  }

  /** The `At` fluents the airport loop adds: every object at every airport, unless positive. */
  lemma {:induction false} NegativeAtFacts(airports: seq<string>, objects: seq<string>, pos: seq<Fluent>)
    ensures forall f :: f in NegativeAt(airports, objects, pos) <==>
      f.At? && f.a in objects && f.b in airports && f !in pos
    ensures Distinct(airports) && Distinct(objects) ==> Distinct(NegativeAt(airports, objects, pos))
    decreases |airports|
  {
    if |airports| > 0 {
      var tail := airports[1..];
      NegativeAtFacts(tail, objects, pos);
      NegativeAtOneFacts(airports[0], objects, pos);
      var head := NegativeAtOne(airports[0], objects, pos);
      var rest := NegativeAt(tail, objects, pos);
      assert forall a :: a in airports <==> a == airports[0] || a in tail;
      if Distinct(airports) && Distinct(objects) {
        assert airports[0] !in tail by {
          forall k | 0 <= k < |tail| ensures tail[k] != airports[0] {
            assert tail[k] == airports[k + 1];
          }
        }
        assert Distinct(tail) by {
          forall i, j | 0 <= i < j < |tail| ensures tail[i] != tail[j] {
            assert tail[i] == airports[i + 1] && tail[j] == airports[j + 1];
          }
        }
        DistinctConcat(head, rest);
      }
    }
  }

  /** The `In` fluents the plane loop adds: every cargo in every plane. */
  lemma {:induction false} NegativeInFacts(planes: seq<string>, cargos: seq<string>)
    ensures forall f :: f in NegativeIn(planes, cargos) <==> f.In? && f.a in cargos && f.b in planes
    ensures Distinct(planes) && Distinct(cargos) ==> Distinct(NegativeIn(planes, cargos))
    decreases |planes|
  {
    if |planes| > 0 {
      var tail := planes[1..];
      NegativeInFacts(tail, cargos);
      var head := seq(|cargos|, i requires 0 <= i < |cargos| => In(cargos[i], planes[0]));
      var rest := NegativeIn(tail, cargos);
      assert NegativeIn(planes, cargos) == head + rest;
      assert forall f :: f in head <==> f.In? && f.a in cargos && f.b == planes[0] by {
        forall f: Fluent | f.In? && f.a in cargos && f.b == planes[0] ensures f in head {
          var k :| 0 <= k < |cargos| && cargos[k] == f.a;
          assert head[k] == f;
        }
      }
      assert forall p :: p in planes <==> p == planes[0] || p in tail;
      if Distinct(planes) && Distinct(cargos) {
        assert planes[0] !in tail by {
          forall k | 0 <= k < |tail| ensures tail[k] != planes[0] {
            assert tail[k] == planes[k + 1];
          }
        }
        assert Distinct(tail) by {
          forall i, j | 0 <= i < j < |tail| ensures tail[i] != tail[j] {
            assert tail[i] == planes[i + 1] && tail[j] == planes[j + 1];
          }
        }
        DistinctConcat(head, rest);
      }
    }
  }

  /** The arguments `air_cargo_p2` and `air_cargo_p3` pass, from which the negative fluents are generated. */
  datatype Listing = Listing(
    cargos: seq<string>, planes: seq<string>, airports: seq<string>,
    pos: seq<Fluent>, goal: seq<Fluent>)

  /**
    The negative fluents of a listing: every `At` fluent not listed as
    positive, airport by airport, then every `In` fluent, plane by plane.
   */
  function GeneratedNeg(l: Listing): seq<Fluent> {
    NegativeAt(l.airports, l.cargos + l.planes, l.pos) + NegativeIn(l.planes, l.cargos)
  }

  /** The constructor call of `air_cargo_p2` and `air_cargo_p3`. */
  function GeneratedProblem(l: Listing): Problem {
    NewProblem(l.cargos, l.planes, l.airports, l.pos, GeneratedNeg(l), l.goal)
  }

  /** The fluents a problem over these objects can mention: objects at airports, cargos in planes. */
  predicate InUniverse(f: Fluent, cargos: seq<string>, planes: seq<string>, airports: seq<string>) {
    match f
    case At(x, y) => (x in cargos || x in planes) && y in airports
    case In(x, y) => x in cargos && y in planes
  }

  /** No object or positive fluent is listed twice, and the positive fluents are `At` fluents over the objects. */
  predicate ObjectsListed(l: Listing) {
    && Distinct(l.cargos + l.planes) && Distinct(l.airports) && Distinct(l.pos)
    && forall f :: f in l.pos ==> f.At? && InUniverse(f, l.cargos, l.planes, l.airports)
  }

  /** The goal fluents are distinct, over the objects, and none of them is positive. */
  predicate GoalListed(l: Listing) {
    && Distinct(l.goal)
    && forall g :: g in l.goal ==> InUniverse(g, l.cargos, l.planes, l.airports) && g !in l.pos
  }

  /** A well-formed listing generates a state map that lists every fluent of the universe exactly once. */
  lemma GeneratedStateMap(l: Listing)
    requires ObjectsListed(l)
    ensures var sm := GeneratedProblem(l).stateMap;
      && Distinct(sm)
      && (forall f :: f in sm <==> InUniverse(f, l.cargos, l.planes, l.airports))
  {
    var objects := l.cargos + l.planes;
    var negAt := NegativeAt(l.airports, objects, l.pos);
    var negIn := NegativeIn(l.planes, l.cargos);
    assert Distinct(l.cargos) && Distinct(l.planes) by {
      forall i, j | 0 <= i < j < |l.cargos| ensures l.cargos[i] != l.cargos[j] {
        assert l.cargos[i] == objects[i] && l.cargos[j] == objects[j];
      }
      forall i, j | 0 <= i < j < |l.planes| ensures l.planes[i] != l.planes[j] {
        assert l.planes[i] == objects[|l.cargos| + i] && l.planes[j] == objects[|l.cargos| + j];
      }
    }
    NegativeAtFacts(l.airports, objects, l.pos);
    NegativeInFacts(l.planes, l.cargos);
    DistinctConcat(negAt, negIn);
    DistinctConcat(l.pos, negAt + negIn);
  }

  /**
    On a problem whose state map has no duplicates and lists the goal
    fluents, with distinct goal fluents none of which is positive, the
    initial estimate is the number of goal fluents and, when there is one,
    the initial state is not a goal state.
   */
  lemma ListedInitialEstimate(cargos: seq<string>, planes: seq<string>, airports: seq<string>,
                              pos: seq<Fluent>, neg: seq<Fluent>, goal: seq<Fluent>)
    requires Distinct(pos + neg) && Distinct(goal)
    requires forall g :: g in goal ==> g in neg && g !in pos
    ensures var p := NewProblem(cargos, planes, airports, pos, neg, goal);
      && HIgnorePreconditions(p, p.initial) == |goal|
      && (|goal| > 0 ==> !GoalTest(p, p.initial))
  {
    var p := NewProblem(cargos, planes, airports, pos, neg, goal);
    ListedInitialCount(cargos, planes, airports, pos, neg, goal);
    HeuristicZeroIffGoal(p, p.initial);
  }

  lemma ListedInitialCount(cargos: seq<string>, planes: seq<string>, airports: seq<string>,
                           pos: seq<Fluent>, neg: seq<Fluent>, goal: seq<Fluent>)
    requires Distinct(pos + neg) && Distinct(goal)
    requires forall g :: g in goal ==> g in neg && g !in pos
    ensures var p := NewProblem(cargos, planes, airports, pos, neg, goal);
      && (forall g :: g in p.goal ==> g in p.stateMap)
      && HIgnorePreconditions(p, p.initial) == |goal|
  {
    var p := NewProblem(cargos, planes, airports, pos, neg, goal);
    HeuristicCountsFalseGoals(p, p.initial);
    DisjointMinus(goal, pos);
    ElementsSize(goal);
  }

  /** The same for a generated problem. */
  lemma GeneratedInitialEstimate(l: Listing)
    requires ObjectsListed(l) && GoalListed(l)
    ensures var p := GeneratedProblem(l);
      && HIgnorePreconditions(p, p.initial) == |l.goal|
      && (|l.goal| > 0 ==> !GoalTest(p, p.initial))
  {
    GeneratedStateMap(l);
    assert forall g :: g in l.goal ==> g in l.pos + GeneratedNeg(l);
    ListedInitialEstimate(l.cargos, l.planes, l.airports, l.pos, GeneratedNeg(l), l.goal);
  }

  /** `air_cargo_p2`: three cargos, three planes, three airports. */
  function AirCargoP2(): Problem {
    GeneratedProblem(P2Listing())
  }

  function P2Listing(): Listing {
    Listing([C1, C2, C3], [P1, P2, P3], [JFK, SFO, ATL],
      [At(C1, SFO), At(C2, JFK), At(C3, ATL), At(P1, SFO), At(P2, JFK), At(P3, ATL)],
      [At(C1, JFK), At(C2, SFO), At(C3, SFO)])
  }

  /** `air_cargo_p3`: four cargos, two planes, four airports. */
  function AirCargoP3(): Problem {
    GeneratedProblem(P3Listing())
  }

  function P3Listing(): Listing {
    Listing([C1, C2, C3, C4], [P1, P2], [JFK, SFO, ATL, ORD],
      [At(C1, SFO), At(C2, JFK), At(C3, ATL), At(C4, ORD), At(P1, SFO), At(P2, JFK)],
      [At(C1, JFK), At(C2, SFO), At(C3, JFK), At(C4, SFO)])
  }

  /** The listings of problems 2 and 3, which share the facts below. */
  predicate Benchmark(l: Listing) {
    l == P2Listing() || l == P3Listing()
  }

  /** The objects and positive fluents of problems 2 and 3 are well formed. */
  lemma BenchmarkObjectsListed(l: Listing)
    requires Benchmark(l)
    ensures ObjectsListed(l)
  {
    BenchmarkNamesDistinct(l);
    BenchmarkPosDistinct(l);
    BenchmarkPosOver(l);
  }

  lemma BenchmarkNamesDistinct(l: Listing)
    requires Benchmark(l)
    ensures Distinct(l.cargos + l.planes) && Distinct(l.airports)
  {
  }

  lemma BenchmarkPosDistinct(l: Listing)
    requires Benchmark(l)
    ensures Distinct(l.pos)
  {
  }

  lemma BenchmarkPosOver(l: Listing)
    requires Benchmark(l)
    ensures forall f :: f in l.pos ==> f.At? && InUniverse(f, l.cargos, l.planes, l.airports)
  {
  }

  /** The goal fluents of problems 2 and 3 are distinct, over their objects, and not positive. */
  lemma BenchmarkGoalListed(l: Listing)
    requires Benchmark(l)
    ensures GoalListed(l)
  {
    BenchmarkGoalOver(l);
    BenchmarkGoalNotPositive(l);
  }

  lemma BenchmarkGoalOver(l: Listing)
    requires Benchmark(l)
    ensures Distinct(l.goal)
    ensures forall g :: g in l.goal ==> InUniverse(g, l.cargos, l.planes, l.airports)
  {
  }

  lemma BenchmarkGoalNotPositive(l: Listing)
    requires Benchmark(l)
    ensures forall g :: g in l.goal ==> g !in l.pos
  {
  }

  /** Problem 2's state map lists every fluent over its objects exactly once. */
  lemma P2StateMap()
    ensures var p := AirCargoP2();
      && Distinct(p.stateMap)
      && (forall f :: f in p.stateMap <==> InUniverse(f, p.cargos, p.planes, p.airports))
  {
    BenchmarkObjectsListed(P2Listing());
    GeneratedStateMap(P2Listing());
  }

  /** Problem 2 has 27 Load, 27 Unload and 18 Fly actions. */
  lemma P2ActionCount()
    ensures |AirCargoP2().actionsList| == 72
  {
    var l := P2Listing();
    ActionCount(l.cargos, l.planes, l.airports);
  }

  /** Problem 2's three goal fluents are all false initially: the estimate there is 3. */
  lemma P2InitialEstimate()
    ensures !GoalTest(AirCargoP2(), AirCargoP2().initial)
    ensures HIgnorePreconditions(AirCargoP2(), AirCargoP2().initial) == 3
  {
    BenchmarkObjectsListed(P2Listing());
    BenchmarkGoalListed(P2Listing());
    GeneratedInitialEstimate(P2Listing());
  }

  /** Problem 3's state map lists every fluent over its objects exactly once. */
  lemma P3StateMap()
    ensures var p := AirCargoP3();
      && Distinct(p.stateMap)
      && (forall f :: f in p.stateMap <==> InUniverse(f, p.cargos, p.planes, p.airports))
  {
    BenchmarkObjectsListed(P3Listing());
    GeneratedStateMap(P3Listing());
  }

  /** Problem 3 has 32 Load, 32 Unload and 24 Fly actions. */
  lemma P3ActionCount()
    ensures |AirCargoP3().actionsList| == 88
  {
    var l := P3Listing();
    ActionCount(l.cargos, l.planes, l.airports);
  }

  /** Problem 3's four goal fluents are all false initially: the estimate there is 4. */
  lemma P3InitialEstimate()
    ensures !GoalTest(AirCargoP3(), AirCargoP3().initial)
    ensures HIgnorePreconditions(AirCargoP3(), AirCargoP3().initial) == 4
  {
    BenchmarkObjectsListed(P3Listing());
    BenchmarkGoalListed(P3Listing());
    GeneratedInitialEstimate(P3Listing());
  }

  /** Problem 1 has 8 Load, 8 Unload and 4 Fly actions. */
  lemma P1ActionCount()
    ensures |AirCargoP1().actionsList| == 20
  {
    var p := AirCargoP1();
    assert |p.cargos| == 2 && |p.planes| == 2 && |p.airports| == 2 && Distinct(p.airports);
    ActionCount(p.cargos, p.planes, p.airports);
  }

  /** Problem 1's lists: no duplicates, and each goal fluent negative and not positive. */
  lemma P1ListsFacts()
    ensures Distinct(P1Pos() + P1Neg()) && Distinct(P1Goal())
    ensures forall g :: g in P1Goal() ==> g in P1Neg() && g !in P1Pos()
  {
    var neg := P1Neg();
    assert neg[3] == At(C1, JFK) && neg[0] == At(C2, SFO);
  }

  /** Every fluent the six-step plan adds is listed among problem 1's negative fluents. */
  lemma P1PlanAddsListed()
    ensures forall j, f :: 0 <= j < 6 && f in P1Plan()[j].effectAdd ==> f in P1Neg()
  {
    var neg := P1Neg();
    assert neg[4] == In(C1, P1) && neg[2] == In(C2, P2) && neg[6] == At(P1, JFK) && neg[7] == At(P2, SFO);
    assert neg[3] == At(C1, JFK) && neg[0] == At(C2, SFO);
  }

  /** Problem 1 has 12 state-map entries, without duplicates, and both goal fluents among them. */
  lemma P1StateMap()
    ensures var p := AirCargoP1();
      && |p.stateMap| == 12 && Distinct(p.stateMap)
      && (forall g :: g in p.goal ==> g in p.stateMap)
      && (forall j, f :: 0 <= j < 6 && f in P1Plan()[j].effectAdd ==> f in p.stateMap)
  {
    P1ListsFacts();
    P1PlanAddsListed();
  }

  /** In problem 1 both goal fluents are false initially, so the estimate there is 2. */
  lemma P1InitialEstimate()
    ensures !GoalTest(AirCargoP1(), AirCargoP1().initial)
    ensures HIgnorePreconditions(AirCargoP1(), AirCargoP1().initial) == 2
  {
    P1ListsFacts();
    ListedInitialEstimate([C1, C2], [P1, P2], [JFK, SFO], P1Pos(), P1Neg(), P1Goal());
  }

  /** The six-step plan for problem 1: each cargo is flown to the other airport by the plane parked with it. */
  function P1Plan(): seq<Action> {
    [LoadAction(C1, P1, SFO), FlyAction(P1, SFO, JFK), UnloadAction(C1, P1, JFK),
     LoadAction(C2, P2, JFK), FlyAction(P2, JFK, SFO), UnloadAction(C2, P2, SFO)]
  }

  /** One applicable step, seen on knowledge bases: the successor holds the effects applied to `kb`. */
  lemma StepOnKb(p: Problem, s: State, act: Action, kb: set<Fluent>)
    requires IsState(p, s) && Distinct(p.stateMap) && TrueFluents(p.stateMap, s) == kb
    requires forall f :: f in act.precondPos ==> f in kb
    requires act.precondNeg == []
    requires forall f :: f in act.effectAdd ==> f in p.stateMap
    ensures Applicable(p.stateMap, s, act)
    ensures TrueFluents(p.stateMap, Result(p, s, act)) == ApplyEffects(kb, act)
  {
    ResultTrueFluents(p, s, act);
    var sm := p.stateMap;
    forall f | f in ApplyEffects(kb, act) ensures f in Elements(sm) {
      if f !in act.effectAdd {
        var k :| 0 <= k < |sm| && sm[k] == f && s[k];
      }
    }
  }

  /** The knowledge bases the six-step plan passes through, from problem 1's initial one. */
  function P1Kb(i: nat): set<Fluent>
    requires i <= 6
  {
    match i
    case 0 => {At(C1, SFO), At(C2, JFK), At(P1, SFO), At(P2, JFK)}
    case 1 => {In(C1, P1), At(C2, JFK), At(P1, SFO), At(P2, JFK)}
    case 2 => {In(C1, P1), At(C2, JFK), At(P1, JFK), At(P2, JFK)}
    case 3 => {At(C1, JFK), At(C2, JFK), At(P1, JFK), At(P2, JFK)}
    case 4 => {At(C1, JFK), In(C2, P2), At(P1, JFK), At(P2, JFK)}
    case 5 => {At(C1, JFK), In(C2, P2), At(P1, JFK), At(P2, SFO)}
    case _ => {At(C1, JFK), At(C2, SFO), At(P1, JFK), At(P2, SFO)}
  }

  /** Step i of the plan needs only fluents of knowledge base i and turns it into knowledge base i + 1. */
  lemma P1KbStep(i: nat)
    requires i < 6
    ensures forall f :: f in P1Plan()[i].precondPos ==> f in P1Kb(i)
    ensures P1Plan()[i].precondNeg == []
    ensures ApplyEffects(P1Kb(i), P1Plan()[i]) == P1Kb(i + 1)
  {
  }

  /**
    The six-step plan on any duplicate-free problem whose initial knowledge base is problem
    1's and whose state map holds the fluents the plan adds: every step is
    applicable, and the last state holds the sixth knowledge base. The plan is
    passed as a variable equal to `P1Plan()` so that the solver refers to it by
    name instead of unfolding the six-action literal at every step.
   */
  lemma {:induction false} P1PlanRuns(p: Problem, plan: seq<Action>, s: State, i: nat)
    requires plan == P1Plan()
    requires i <= 6 && IsState(p, s) && Distinct(p.stateMap) && TrueFluents(p.stateMap, s) == P1Kb(i)
    requires forall j, f :: 0 <= j < 6 && f in plan[j].effectAdd ==> f in p.stateMap
    ensures TrueFluents(p.stateMap, Run(p, s, plan[i..])) == P1Kb(6)
    decreases 6 - i
  {
    if i < 6 {
      var act := plan[i];
      P1KbStep(i);
      StepOnKb(p, s, act, P1Kb(i));
      assert plan[i..][1..] == plan[i + 1..];
      P1PlanRuns(p, plan, Result(p, s, act), i + 1);
    }
  }

  /**
    On any duplicate-free problem with problem 1's goal, initial knowledge base and added fluents,
    the plan reaches the goal (the plan parameter is `P1Plan()` by name, as in `P1PlanRuns`).
   */
  lemma P1PlanReachesGoalOn(p: Problem, plan: seq<Action>)
    requires plan == P1Plan()
    requires IsState(p, p.initial) && Distinct(p.stateMap) && TrueFluents(p.stateMap, p.initial) == P1Kb(0)
    requires forall j, f :: 0 <= j < 6 && f in plan[j].effectAdd ==> f in p.stateMap
    requires p.goal == P1Goal()
    ensures GoalTest(p, Run(p, p.initial, plan))
  {
    P1PlanRuns(p, plan, p.initial, 0);
    assert plan[0..] == plan;
    P1GoalHoldsAtEnd(p, Run(p, p.initial, plan));
  }

  /** The last knowledge base of the plan holds both goal fluents of problem 1. */
  lemma P1GoalHoldsAtEnd(p: Problem, s: State)
    requires IsState(p, s) && TrueFluents(p.stateMap, s) == P1Kb(6)
    requires p.goal == P1Goal()
    ensures GoalTest(p, s)
  {
  }

  /** The six-step plan uses only actions of problem 1. */
  lemma P1PlanIsGrounded()
    ensures forall i :: 0 <= i < |P1Plan()| ==> P1Plan()[i] in AirCargoP1().actionsList
  {
    P1FirstDeliveryGrounded();
    P1SecondDeliveryGrounded();
  }

  /** The three steps that carry C1 from SFO to JFK are problem-1 actions. */
  lemma P1FirstDeliveryGrounded()
    ensures forall i :: 0 <= i < 3 ==> P1Plan()[i] in AirCargoP1().actionsList
  {
    var p := AirCargoP1();
    LoadListed(p, C1, P1, SFO);
    FlyListed(p, P1, SFO, JFK);
    UnloadListed(p, C1, P1, JFK);
  }

  /** The three steps that carry C2 from JFK to SFO are problem-1 actions. */
  lemma P1SecondDeliveryGrounded()
    ensures forall i :: 3 <= i < 6 ==> P1Plan()[i] in AirCargoP1().actionsList
  {
    var p := AirCargoP1();
    LoadListed(p, C2, P2, JFK);
    FlyListed(p, P2, JFK, SFO);
    UnloadListed(p, C2, P2, SFO);
  }

  /** Loading a listed cargo into a listed plane at a listed airport is one of the problem's actions. */
  lemma LoadListed(p: Problem, c: string, pl: string, a: string)
    requires Valid(p) && c in p.cargos && pl in p.planes && a in p.airports
    ensures LoadAction(c, pl, a) in p.actionsList
  {
    GetActionsMembership(p.cargos, p.planes, p.airports, LoadAction(c, pl, a));
  }

  /** Unloading a listed cargo from a listed plane at a listed airport is one of the problem's actions. */
  lemma UnloadListed(p: Problem, c: string, pl: string, a: string)
    requires Valid(p) && c in p.cargos && pl in p.planes && a in p.airports
    ensures UnloadAction(c, pl, a) in p.actionsList
  {
    GetActionsMembership(p.cargos, p.planes, p.airports, UnloadAction(c, pl, a));
  }

  /** Flying a listed plane between two different listed airports is one of the problem's actions. */
  lemma FlyListed(p: Problem, pl: string, fr: string, to: string)
    requires Valid(p) && pl in p.planes && fr in p.airports && to in p.airports && fr != to
    ensures FlyAction(pl, fr, to) in p.actionsList
  {
    GetActionsMembership(p.cargos, p.planes, p.airports, FlyAction(pl, fr, to));
  }

  /** The six-step plan reaches problem 1's goal, each of its actions applicable when taken. */
  lemma P1PlanReachesGoal()
    ensures GoalTest(AirCargoP1(), Run(AirCargoP1(), AirCargoP1().initial, P1Plan()))
  {
    var plan := P1Plan();
    var p := AirCargoP1();
    P1StateMap();
    assert Elements(P1Pos()) == P1Kb(0);
    P1PlanReachesGoalOn(p, plan);
  }

  /** Problem 1 needs at least two actions: the estimate bounds every plan that reaches its goal. */
  lemma P1PlansNeedTwoActions(plan: seq<Action>)
    requires forall i :: 0 <= i < |plan| ==> plan[i] in AirCargoP1().actionsList
    requires GoalTest(AirCargoP1(), Run(AirCargoP1(), AirCargoP1().initial, plan))
    ensures |plan| >= 2
  {
    P1Admissible();
    EstimateBoundsPlans(AirCargoP1(), 2, plan);
  }

  /**
    The conditions under which the ignore-preconditions estimate is
    admissible, with h the estimate of the initial state.
   */
  predicate AdmissibleFrom(p: Problem, h: nat) {
    && Valid(p) && IsState(p, p.initial) && Distinct(p.stateMap)
    && (forall g :: g in p.goal ==> g in p.stateMap)
    && HIgnorePreconditions(p, p.initial) == h
  }

  /** Every plan from the problem's own actions that reaches its goal has at least h actions. */
  lemma EstimateBoundsPlans(p: Problem, h: nat, plan: seq<Action>)
    requires AdmissibleFrom(p, h)
    requires forall i :: 0 <= i < |plan| ==> plan[i] in p.actionsList
    requires GoalTest(p, Run(p, p.initial, plan))
    ensures |plan| >= h
  {
    AdmissibleOnGroundedPlans(p, p.initial, plan);
  }

  /** Problem 1 meets those conditions with initial estimate 2. */
  lemma P1Admissible()
    ensures AdmissibleFrom(AirCargoP1(), 2)
  {
    P1StateMap();
    P1InitialEstimate();
  }
}
